=== FILE: README.md ===
# Atlas warehouse — a verified model of its core

Atlas is a small warehouse application built with Next.js. The server side
has API routes over a PostgreSQL database. The client side has pages for
registration, the product catalogue, stock levels and an audit log. This
project models the core of that application in Dafny and proves what each
part promises:

- **`/api/logs`** (`logs_api.dfy`, module `LogsApi`). The audit-log
  endpoint, modelled as a class `LogStore` that holds the table as a
  sequence of entries in insertion order, plus the next serial id.
  - GET builds the filter clauses one by one, keeps the matching rows,
    orders them newest first, cuts one page out of them and counts every
    match for the pagination envelope.
  - POST validates the body and appends a new entry.
  - DELETE removes the rows with the given id.
  - Any other method gets 405.
- **`/api/updateStock`** (`update_stock.dfy`, module `UpdateStock`). Adds
  a signed delta to a product's stock, clamped at zero (SQL `GREATEST`),
  on a class `ProductTable` of product rows. It has the 405, 400 and 404
  error answers.
- **The registration page** (`register.dfy`, module `Register`).
  - The password rule `getPasswordError`.
  - The error map that `onSubmit` assembles before anything is sent.
  - What the page shows for each server answer.
  - `removeError`.
- **The products page** (`products_page.dfy`, module `ProductsPage`).
  - The product form and its submission.
  - CSV export (product → record) and CSV import (record → payload, with
    Portuguese or English headers and JavaScript `parseInt` for the
    quantity).
  - The import loop that posts each postable row and appends what the
    server returns.
  - The case-insensitive search.
- **The stock page** (`inventory_page.dfy`, module `InventoryPage`).
  - The code → quantity map built after a fetch.
  - The local clamped update after the server accepts a change, and the
    plus and minus buttons.
  - The "Sem estoque" / "Estoque baixo" chips and the disabled minus
    button.
- **The audit-log page** (`logs_page.dfy`, module `LogsPage`).
  - Action colours, icons and labels; description truncation.
  - The two distinct counters.
  - Filter editing and the requests that applying or clearing the filters
    sends.
  - The answers to those requests and the page effect they trigger. A reset
    from a page other than 1 does not stay on page 1 (see "## Findings").

Shared modules:

- `optional.dfy`: `Option`, which stands for an absent field or SQL NULL.
- `catalog.dfy`: a product row.
- `text.dfy`: ASCII case folding, substring search, decimal rendering and
  JavaScript's `parseInt`. It proves `parseInt(String(n)) == n`.

Everything outside the process is a parameter:

- Server replies become `Reply`/`accepted` arguments.
- The clock becomes `now`.
- Date parsing becomes `toTime`.

A DELETE id, page and limit arrive as already-parsed integers.

The user clause at `pages/api/logs.ts:57` also tests `user_id::text`
against the same `%`-wrapped pattern. No integer's text contains `%`, so
that branch can never match (`UserIdBranchNeverMatches`), and a user filter
selects by e-mail only.

## Model

| member | source | states |
|---|---|---|
| Text.LowerChar | pages/main/index.tsx:262-264 | a capital letter becomes the same letter in lower case (code point + 32); any other character is unchanged |
| Text.Lower | pages/main/index.tsx:262-264 | lower-casing keeps the length and folds each character, leaving no capital letter |
| Text.LowerKeepsLowercase | pages/main/index.tsx:262-264 | a string with no capital letter is unchanged by lower-casing |
| Text.EmptyIsContained | pages/main/index.tsx:261-265 | the empty search string occurs in every string |
| Text.ContainsIgnoreCase | pages/main/index.tsx:261-265 | `a.toLowerCase().includes(b.toLowerCase())`: a match is never longer than the text, and strings equal up to case contain each other |
| Text.IntToText | pages/main/index.tsx:192 | `String(n)` is non-empty, an optional minus followed by decimal digits only |
| Text.TrimStart | pages/main/index.tsx:223 | `parseInt` skips exactly the leading ASCII white space (space, tab, line feed, vertical tab, form feed, carriage return): the result is a suffix, every dropped character is white space, and the result does not start with white space |
| Text.DigitRun | pages/main/index.tsx:223 | `parseInt` reads the longest prefix of digits: every character in it is a digit and the next one is not |
| Text.NatToTextValue | pages/main/index.tsx:192 | the decimal digits of `n` denote `n` |
| Text.ParseDigitString | pages/main/index.tsx:223 | `parseInt` of a non-empty digit string is the value of its digits |
| Text.ParseMinusDigitString | pages/main/index.tsx:223 | `parseInt` of `-` followed by digits is minus their value |
| Text.ParseInt | pages/main/index.tsx:223 | `parseInt` without a radix: a number is read only when the text holds a decimal digit; otherwise NaN (`None`) |
| Text.ParseIntRoundTrip | pages/main/index.tsx:223 | `parseInt(String(n)) == n` for every exact integer `n` (see Left out for JavaScript's number limits) |
| LogsApi.ILike | pages/api/logs.ts:57 | `value ILIKE pattern` for the handler's patterns: `%x%` is case-insensitive containment of `x`; a pattern without wildcards is case-insensitive equality |
| LogsApi.Holds | pages/api/logs.ts:49-73 | the SQL truth of each kind of clause: exact action, e-mail ILIKE or id text equal to the pattern, product name or code ILIKE, the inclusive date bounds; a NULL column fails its ILIKE |
| LogsApi.FilterClauses | pages/api/logs.ts:49-73 | exactly one clause per given filter, so at most five, the action clause first when given; no clause exactly when no filter is given |
| LogsApi.AllHoldConcat | pages/api/logs.ts:45-73 | a conjunction of clauses appended to one another holds iff both parts hold |
| LogsApi.OptionalClause | pages/api/logs.ts:50-73 | a filter that adds no clause leaves the WHERE as it was |
| LogsApi.UserIdBranchNeverMatches | pages/api/logs.ts:57 | `user_id::text = '%x%'` is false for every id, because no integer renders with a `%` |
| LogsApi.ILikeWrapped | pages/api/logs.ts:56-62 | `ILIKE '%x%'` holds exactly when the value contains `x` ignoring case |
| LogsApi.UserClauseMeaning | pages/api/logs.ts:55-58 | the user clause holds iff the e-mail is present and contains the user text ignoring case |
| LogsApi.ClausesMeaning | pages/api/logs.ts:49-73 | the clauses for a filter set hold of an entry iff the entry matches every given filter (reference predicate `Matches`) |
| LogsApi.NoFiltersNoClauses | pages/api/logs.ts:45-73 | with no filter given, no clause is added and every entry matches |
| LogsApi.UserFilterIgnoresCase | pages/api/logs.ts:55-58 | for all entries and user texts: e-mails equal up to case, searched with texts equal up to case, match alike |
| LogsApi.Where | pages/api/logs.ts:44-45 | the selection holds every accepted entry as many times as the table does and no other entry, so its length is the number of matching rows |
| LogsApi.WhereNoClauses | pages/api/logs.ts:45 | `WHERE 1=1` with no clause selects the whole table |
| LogsApi.Insert | pages/api/logs.ts:76 | inserting adds exactly that entry to the list's contents (same multiset plus one) |
| LogsApi.InsertKeepsOrder | pages/api/logs.ts:76 | insertion into a list ordered newest first yields a list ordered newest first |
| LogsApi.SortNewestFirst | pages/api/logs.ts:76 | `ORDER BY created_at DESC` gives a newest-first permutation of its input (same multiset) |
| LogsApi.Window | pages/api/logs.ts:76-77 | `LIMIT n OFFSET o` gives the elements from position `o` on, `min(n, remaining)` of them, and nothing when `o` is past the end |
| LogsApi.TotalPages | pages/api/logs.ts:118 | `Math.ceil(total / limit)`: the smallest page count whose pages hold every match |
| LogsApi.WindowOfOrdered | pages/api/logs.ts:76-77 | a window of a newest-first list is newest first, and its elements come from the list |
| LogsApi.PageOfMatches | pages/api/logs.ts:44-80 | every entry on a page is a table entry that matches the filters; the page is newest first and holds at most `limit` entries |
| LogsApi.PastLastPageIsEmpty | pages/api/logs.ts:31 | a page past `totalPages` is empty |
| LogsApi.FirstPagesArePrefix | pages/api/logs.ts:29-31 | pages 1 to n, each `LIMIT limit OFFSET (page - 1) * limit`, laid end to end are the first `n * limit` matches in order: consecutive pages neither overlap nor leave a gap |
| LogsApi.PagesCoverAllMatches | pages/api/logs.ts:114-121 | pages 1 to `totalPages` together hold every match exactly once, in order |
| LogsApi.TwentyFiveByTen | pages/api/logs.ts:114-121 | 25 matches at 10 per page fill 3 pages; page 3 holds 5 entries and page 4 none |
| LogsApi.WithoutId | pages/api/logs.ts:160 | `DELETE ... WHERE id = $1` keeps exactly the entries with another id, and the table does not grow |
| LogsApi.WithoutIdKeepsOrder | pages/api/logs.ts:160 | deleting keeps ids ascending |
| LogsApi.DeleteIsIdempotent | pages/api/logs.ts:152-162 | deleting the same id twice leaves what deleting it once leaves |
| LogsApi.DeleteMissingIdChangesNothing | pages/api/logs.ts:160-162 | deleting an id no entry has leaves the table unchanged (the handler still answers success) |
| LogsApi.DeleteRemovesAtMostOne | pages/api/logs.ts:160 | with ids ascending (unique), a delete removes at most one entry |
| LogsApi.MethodOf | pages/api/logs.ts:25 | the handler tells GET, POST and DELETE apart by exact name; anything else is another method |
| LogsApi.LogStore.Record | pages/api/logs.ts:130-145 | POST with no action or no description answers 400 and changes nothing; otherwise it appends exactly one entry with the next id, the body's fields and the current time, and answers 201 with that entry |
| LogsApi.LogStore.BuildClauses | pages/api/logs.ts:47-73 | the clauses pushed one by one are `FilterClauses(f)`, and they hold of an entry iff it matches the filters |
| LogsApi.LogStore.Query | pages/api/logs.ts:25-122 | GET answers the requested page of the newest-first matches, at most `limit` of them, all from the table and all matching; the envelope carries the page, the limit, the count of all matches and `ceil(count / limit)` pages |
| LogsApi.LogStore.Remove | pages/api/logs.ts:152-162 | DELETE with no id answers 400 and changes nothing; with an id it removes every entry with that id and reports success |
| LogsApi.LogStore.Handle | pages/api/logs.ts:24-170 | GET answers the page and envelope of `Query`; POST answers 400 and changes nothing iff action or description is missing, else appends the entry with the next id, the body's fields and `now`, answers 201 and advances the serial; DELETE answers 400 without an id, else removes that id and answers success, never moving the serial; any other method answers 405; GET and 405 leave the table and serial unchanged; ids stay ascending and below the serial |
| LogsApi.CountWithoutFilters | pages/api/logs.ts:83-112 | with no filter given, the count is the number of rows in the table |
| UpdateStock.Restocked | pages/api/updateStock.ts:28 | `GREATEST(quantity + delta, 0)`: never negative, at least the sum, and either the sum or 0 |
| UpdateStock.ApplyDelta | pages/api/updateStock.ts:26-32 | the UPDATE changes only the rows with the code, each to its clamped new quantity; other rows and the row count are unchanged |
| UpdateStock.ApplyDeltaKeepsStock | pages/api/updateStock.ts:28 | starting with non-negative stock, stock stays non-negative after any delta |
| UpdateStock.UnknownCodeChangesNothing | pages/api/updateStock.ts:26-36 | an update for a code no row has leaves every row unchanged (the 404 case) |
| UpdateStock.IncrementsAccumulate | pages/api/updateStock.ts:28 | on non-negative stock, two increments give the same rows as one increment by their sum |
| UpdateStock.ProductTable.RunUpdate | pages/api/updateStock.ts:26-32 | the row-by-row update yields `ApplyDelta`, and reports the first matching row, which exists iff some row has the code |
| UpdateStock.ProductTable.Handle | pages/api/updateStock.ts:13-43 | not POST: 405; a missing or empty code or a missing quantity: 400; both leave rows unchanged. Otherwise rows become `ApplyDelta`; an unknown code gives 404 with nothing changed; a known one answers the first matching row's code, name and new quantity |
| Register.CountUpper | pages/register/index.tsx:35 | the count of capital letters is at most the length, and at least 1 iff the password has one |
| Register.CountNonLetter | pages/register/index.tsx:38 | the count of characters outside `[a-zA-Z]` is at most the length, and at least 1 iff there is one |
| Register.PasswordError | pages/register/index.tsx:31-43 | shorter than 4 gives the length message; otherwise no capital letter gives the uppercase message; otherwise no character outside a–z/A–Z gives the symbol message; no error iff all three rules hold |
| Register.DigitCountsAsSymbol | pages/register/index.tsx:38-40 | a digit satisfies the "symbol" rule: `Abc1` is accepted |
| Register.CollectErrors | pages/register/index.tsx:58-71 | `newErrors` has a `password` entry iff the password is refused (with its message), `name` iff the name is `admin` ("ta facil"), `terms` iff terms is not `"true"` (with its message), and no other key; it is non-empty iff the form is refused |
| Register.NewErrorsAreUnique | pages/register/index.tsx:59-66 | that description determines the map: two maps meeting it for the same form are equal |
| Register.RegistrationForm.constructor | pages/register/index.tsx:27 | the form starts with no error |
| Register.RegistrationForm.OnSubmit | pages/register/index.tsx:45-121 | nothing is sent iff the form is refused, and then the errors are non-empty and meet the `newErrors` description key by key and value by value (so they equal `CollectErrors`' map); when sent, the errors are cleared on success, hold `api` with the server's message or "Erro ao registrar" on refusal, and the connection message when the server cannot be reached |
| Register.RegistrationForm.RemoveError | pages/register/index.tsx:124-130 | removes the field's error and keeps every other error with its message |
| ProductsPage.RefusalMessage | pages/main/index.tsx:159-162 | the server's error when it sent a non-empty one, else a message naming the status |
| ProductsPage.SubmitPayload | pages/main/index.tsx:141-148 | the payload carries the form's name, description and code, the supplier as type, and quantity 0 |
| ProductsPage.ExportRow | pages/main/index.tsx:186-193 | one record per product with exactly the five Portuguese headers, each holding its field, the quantity as `String(n)` |
| ProductsPage.Cell | pages/main/index.tsx:219-223 | `row.A \|\| row.B \|\| default`: the first non-empty of the two cells, else the default |
| ProductsPage.ImportRow | pages/main/index.tsx:218-225 | each payload field comes from its Portuguese cell, else its English cell, else empty; the quantity is `parseInt` of the chosen cell, default `"0"` |
| ProductsPage.MissingQuantityReadsZero | pages/main/index.tsx:223 | a record without a quantity cell imports with quantity 0 |
| ProductsPage.EnglishHeadersImport | pages/main/index.tsx:219-228 | a record with only English headers imports its name and code from them, and is posted iff both are non-empty |
| ProductsPage.ExportThenImport | pages/main/index.tsx:186-225 | importing an exported product gives back its name, description, code, type and quantity |
| ProductsPage.Imported | pages/main/index.tsx:227-240 | the import appends at most one product per row |
| ProductsPage.AcceptedAnswers | pages/main/index.tsx:229-237 | row by row, the server's answer to each postable row that it accepted, in row order; at most one product per row |
| ProductsPage.FirstLost | pages/main/index.tsx:228-238 | the first postable row whose POST got no answer (a rejected `fetch` ends the loop), or the row count when there is none; no earlier postable row lost its connection |
| ProductsPage.AcceptedAnswersCons | pages/main/index.tsx:228-238 | the accepted answers of a first row followed by others are that row's answer, then the others' |
| ProductsPage.ImportedStopsAtFirstLost | pages/main/index.tsx:227-240 | the import appends exactly the accepted answers of the rows before the first lost connection, and nothing from that row on |
| ProductsPage.ImportedComeFromPostableRows | pages/main/index.tsx:227-238 | every appended product is a server answer to a posted row, one whose name and code are non-empty |
| ProductsPage.AllAcceptedImportsEveryPostableRow | pages/main/index.tsx:227-238 | when the server accepts every post, exactly one product is appended per postable row |
| ProductsPage.PostableRows | pages/main/index.tsx:228 | the rows that pass the filter are exactly those with a name and a code |
| ProductsPage.SearchProducts | pages/main/index.tsx:261-265 | the search keeps exactly the products whose name, description or code contains the query ignoring case, and no more than there were |
| ProductsPage.SearchKeepsOrder | pages/main/index.tsx:261-265 | searching keeps the relative order of the products |
| ProductsPage.EmptyQueryKeepsAll | pages/main/index.tsx:261-265 | an empty search shows every product |
| ProductsPage.ProductsPage.constructor | pages/main/index.tsx:70-75 | the page starts with the loaded products, an empty form and no error |
| ProductsPage.ProductsPage.HandleSubmit | pages/main/index.tsx:135-183 | an incomplete form posts nothing and shows the required-fields error; otherwise the payload is posted; success prepends the answer and clears the form and errors; refusal or a lost connection shows the error and keeps the form |
| ProductsPage.ProductsPage.HandleImport | pages/main/index.tsx:209-240 | the products become the old ones followed by `Imported` of the mapped records; form and errors unchanged |
| ProductsPage.ProductsPage.PostAll | pages/main/index.tsx:227-240 | the loop over the mapped rows appends exactly `Imported(payloads, replies)` |
| ProductsPage.ImportAll | pages/main/index.tsx:218-225 | one payload per record, in order, each `ImportRow` of its record |
| InventoryPage.Tally | pages/main/estoque.tsx:69-70 | the map after the assignments in order: the last product's code holds its quantity, and there are no more keys than products |
| InventoryPage.TallyKeys | pages/main/estoque.tsx:69-70 | the quantity map has a key iff some product has that code |
| InventoryPage.TallyLastWins | pages/main/estoque.tsx:69-70 | for a repeated code, the last product with it sets the quantity |
| InventoryPage.BuildQuantityMap | pages/main/estoque.tsx:69-71 | the `forEach` loop builds the map where every code maps to the quantity of its last product, and no other key |
| InventoryPage.QuantitiesOfIsUnique | pages/main/estoque.tsx:69-71 | at most one map meets that description |
| InventoryPage.AfterUpdate | pages/main/estoque.tsx:107-110 | the code's quantity becomes `max(0, old + delta)` (old = 0 when absent); the other entries are unchanged |
| InventoryPage.ClientFollowsServer | pages/main/estoque.tsx:107-110 | when the map showed the server's quantity for a code, after an accepted update it shows the server's new quantity |
| InventoryPage.StatusChips | pages/main/estoque.tsx:194-199 | "Sem estoque" iff the quantity is 0, "Estoque baixo" iff it is between 1 and 9, never both |
| InventoryPage.DisabledExactlyWhenOutOfStock | pages/main/estoque.tsx:194-214 | the minus button is disabled exactly when "Sem estoque" shows |
| InventoryPage.InventoryPage.constructor | pages/main/estoque.tsx:57-58 | no products and an empty quantity map at first |
| InventoryPage.InventoryPage.FetchProducts | pages/main/estoque.tsx:63-77 | with an answer, the products become it and the quantities are its map; on failure, nothing changes |
| InventoryPage.InventoryPage.UpdateStock | pages/main/estoque.tsx:95-117 | an accepted update applies `AfterUpdate`; a refused or failed one changes nothing |
| InventoryPage.InventoryPage.HandleIncrement | pages/main/estoque.tsx:85-87 | the plus button is an update by +1 |
| InventoryPage.InventoryPage.HandleDecrement | pages/main/estoque.tsx:90-92 | the minus button is an update by -1 |
| InventoryPage.UpdatesKeepStock | pages/main/estoque.tsx:109 | from non-negative quantities, every update keeps them non-negative |
| InventoryPage.LastUnitDisablesDecrement | pages/main/estoque.tsx:194-214 | a decrement from 1 shows "Sem estoque" and disables the minus button |
| LogsPage.ActionColor | pages/main/log.tsx:320-331 | a known action gets its listed colour; any other gets the default colour |
| LogsPage.KnownActionColors | pages/main/log.tsx:321-329 | the seven listed actions and their colours |
| LogsPage.ActionIcon | pages/main/log.tsx:333-344 | a listed action with a non-empty icon gets it; any other, and PRODUCT_DELETE with its empty icon, gets 📄 |
| LogsPage.DeleteHasDefaultIcon | pages/main/log.tsx:337 | PRODUCT_DELETE shows the default icon, because its icon is empty and `\|\|` falls through |
| LogsPage.FirstUnderscore | pages/main/log.tsx:283 | the position of the first `_`, `None` iff there is none |
| LogsPage.ActionLabel | pages/main/log.tsx:283 | `replace('_', ' ')` turns only the first underscore into a space, keeping the text around it, and leaves a label without one unchanged |
| LogsPage.LabelReplacesFirstUnderscore | pages/main/log.tsx:563 | `a_b` with no underscore in `a` becomes `a b`; later underscores stay |
| LogsPage.Truncated | pages/main/log.tsx:284 | a description over 30 characters becomes its first 30 followed by `...`; a shorter one is kept |
| LogsPage.TruncatedIsShortPrefix | pages/main/log.tsx:284 | a truncated text is at most 33 long and starts with a prefix of the description |
| LogsPage.Distinct | pages/main/log.tsx:452 | exactly the non-empty values that occur, no more of them than there are logs |
| LogsPage.DistinctIsEmpty | pages/main/log.tsx:452 | the set is empty iff no log has a non-empty value |
| LogsPage.ActiveUsers | pages/main/log.tsx:452 | the count of distinct e-mails is at most the number of logs, and 0 iff no log has one |
| LogsPage.ModifiedProducts | pages/main/log.tsx:461 | the count of distinct product codes is at most the number of logs, and 0 iff no log has one |
| LogsPage.RepeatedUserCountsOnce | pages/main/log.tsx:452 | a log by a user already counted does not change the counter |
| LogsPage.WithField | pages/main/log.tsx:158-160 | `{ ...prev, [key]: value }` sets that filter and keeps the other four |
| LogsPage.ToServerFilters | pages/main/log.tsx:114-119 | every text filter reaches the handler as the form's text, given iff non-empty; a non-empty date reaches it as `toTime` of its text, an empty one as absent |
| LogsPage.ClearedFiltersSelectEverything | pages/main/log.tsx:167-178 | with the cleared filters the handler adds no clause and counts the whole table |
| LogsPage.ResetRequests | pages/main/log.tsx:162-177 | a reset fetches first with the page shown before it, then page 1 again iff the page actually changed; the requests the reset itself sends end with page 1 |
| LogsPage.LogsPageState.constructor | pages/main/log.tsx:82-98 | no logs, empty filters, page 1 of 1, no items, 20 per page |
| LogsPage.LogsPageState.HandleFilterChange | pages/main/log.tsx:158-160 | sets one filter, keeps the others and the paging, sends nothing |
| LogsPage.LogsPageState.ApplyFilters | pages/main/log.tsx:162-165 | moves to page 1 and sends the current filters, with the old page and then with page 1 when it changed |
| LogsPage.LogsPageState.ClearFilters | pages/main/log.tsx:167-178 | empties every filter, moves to page 1 and sends the empty filters likewise |
| LogsPage.LogsPageState.OnAnswer | pages/main/log.tsx:105-146 | a listed answer replaces the logs and the whole pagination, page number included; an error or a lost connection changes nothing; the page then fetches `EffectRequests` |
| LogsPage.EffectRequests | pages/main/log.tsx:105-109 | the page fetches again exactly when an answer changed the page number, asking for the new number with the limit received and the filters in the form, at most one request |
| LogsPage.OldPageAnswerRestoresPage | pages/main/log.tsx:111-127 | the answer to a reset's first request, which carries the old page `p` as `currentPage`, puts the page back on `p` and fetches `p` again when another page was shown |
| LogsPage.ResetFromLaterPageEndsThere | pages/main/log.tsx:105-127 | a reset from page `p` ≠ 1 whose page-1 answer arrives first ends on page `p`, and the last fetch's answer changes nothing more |
| LogsPage.ResetAnswersRepeatReset | pages/main/log.tsx:105-127 | when the old-page answer arrives first, the page goes to `p` and back to 1, and the fetches this triggers are the reset's own two requests again |
| LogsPage.IntendedResetRequests | pages/main/log.tsx:162-178 | the corrected reset asks for page 1 only: once, or twice when the page number changed |
| LogsPage.IntendedResetStaysOnFirstPage | pages/main/log.tsx:162-178 | with the corrected reset, every answer to any of its requests, in any order, keeps page 1 and triggers no further fetch |

## Left out

- The PostgreSQL pool, SQL text and the 500 answers of every handler are not modelled. Each statement is modelled as its intended effect on the table. A database failure is outside the model.
- LogsApi.LogStore.Query requires page ≥ 1 and limit ≥ 1. Page and limit arrive as integers; the handler's `parseInt` of them is not modelled. NaN, a negative limit or a page below 1 (a negative OFFSET) make PostgreSQL fail, which is a 500 answer outside the model. A limit of 0 is a separate success case that is not modelled: `LIMIT 0` returns no rows with 200, and `totalPages` is `Math.ceil(n / 0)`, which is `Infinity`, or `NaN` when `n` is 0; both are sent as `null`.
- LogsApi.LogStore.Remove takes the id as an optional integer. A non-numeric id, which PostgreSQL would reject with a 500, is not modelled.
- LogsApi.ILike treats the user and product text as plain text. `%` or `_` typed by the user would act as wildcards in `ILIKE`, and `\`, the default escape character, would escape the next character; neither is modelled.
- Case folding is ASCII only, and lengths count characters, not UTF-16 code units.
- Timestamps and dates are integers. The page's conversion of date text to a time is a parameter `toTime`, so the date-only `endDate` meaning midnight of that day is outside the model.
- LogsApi.SortNewestFirst breaks ties on `created_at` by descending id. PostgreSQL leaves the order of equal timestamps unspecified; the tie-break is a modelling choice.
- The page and the count are two separate queries. A write between them is not modelled (one store state serves both).
- The log page's answers are parameters of `LogsPage.LogsPageState.OnAnswer`, and the order in which they arrive is the caller's choice. React runs the page effect once per committed change of the page number; the model runs it after each answer, so two answers batched into one render are not modelled.
- LogsPage.LogsPageState does not model the product list the page effect also fetches from `/api/regprods`.
- `lib/logger.ts` and the other API routes (`/api/register`, `/api/regprods`, login, products) are not part of this model. Their answers are parameters.
- Rendering, toasts, the router, `fetch` and loading flags are not modelled. Server replies and network failures are parameters.
- PDF export (jsPDF layout), date formatting with `Intl`, the "Ações Hoje" counter and the image upload and preview are not modelled. The payload has no image field.
- Papa Parse/unparse is not modelled. A CSV record is modelled as a map from the ten recognised headers to their cells, and the export as the record it would write.
- UpdateStock.ProductTable.Handle models `typeof quantity === "number"` as an optional integer. Fractional quantities, NaN and Infinity are not modelled.
- Text.ParseInt skips the six ASCII white space characters (space, tab, line feed, vertical tab, form feed, carriage return) but not the other characters JavaScript counts as white space: no-break space U+00A0, the byte order mark U+FEFF, the line and paragraph separators U+2028 and U+2029, and the other Unicode space separators. It takes `None` for NaN.
- Text.IntToText works on unbounded integers. JavaScript's `String(n)` switches to exponent form from 1e21 on (`String(1e21)` is `"1e+21"`), which the model does not produce.
- Text.ParseDigitString gives the exact value of the digits. JavaScript's `parseInt` rounds a value above 2^53 to the nearest double (`parseInt("9007199254740993")` is 9007199254740992); the model does not round.
- Text.ParseMinusDigitString gives the exact negative value, without the rounding below -2^53 that JavaScript applies.
- Text.ParseIntRoundTrip holds for exact integers only. In JavaScript the round trip fails from 1e21 on, where `parseInt("1e+21")` is 1, and it is subject to rounding above 2^53.
- ProductsPage.ExportThenImport assumes the quantity is an exact integer, so it inherits the limits of Text.ParseIntRoundTrip: a quantity of 1e21 or more, or above 2^53, does not come back unchanged in JavaScript.
- LogsPage.ActionColor and LogsPage.ActionIcon look keys up in a map of the seven listed actions. Inherited object keys such as `constructor`, which JavaScript would also find, are not modelled.
- UpdateStock.ProductTable.Handle works on the rows in storage order, and its answer is the first matching row. Which row PostgreSQL returns first for a duplicated code is not specified.
- InventoryPage.InventoryPage.FetchProducts takes the answer as an optional list of products. An answer that parses as JSON but is not a list, such as an error body `{ error: … }`, is not modelled. The page stores it as its products at `pages/main/estoque.tsx:68`; `forEach` then throws at :70, so the quantities stay as they were.

## Findings

| source | as written | input that shows it | evidently intended | confidence | as-written member | corrected member |
|---|---|---|---|---|---|---|
| pages/main/log.tsx:162-178 | `applyFilters` and `clearFilters` set the page to 1 but call `fetchLogs`, which still reads the old page number (:116). The answer echoes that old page (`currentPage: pageNum`, pages/api/logs.ts:117) and `setPagination` (:126) puts it back, and the page effect (:105-109) fetches it again. | On page 3, apply a filter: the requests are page 3, then page 1. If the page-1 answer arrives first, the page ends on page 3 with the new filters. If the page-3 answer arrives first, the page goes to 3, then back to 1, and both pages are fetched again. | A reset shows page 1 of the new selection and stays there. | not executed; high | LogsPage.ResetFromLaterPageEndsThere | LogsPage.IntendedResetStaysOnFirstPage |

`LogsPage.ResetAnswersRepeatReset` proves the other order of arrival. `LogsPage.LogsPageState` keeps the code as written. `LogsPage.IntendedResetRequests` is the corrected reset: `fetchLogs` is given page 1.

=== FILE: catalog.dfy ===
/** A row of the `product` table, as the API returns it and the pages hold it. */
module Catalog {

  datatype Product = Product(
    code: string,
    name: string,         // p_name
    description: string,
    pType: string,        // p_type: the supplier chosen in the registration form
    quantity: int)
}

=== FILE: inventory_page.dfy ===
/** The inventory page (pages/main/estoque.tsx): the quantity shown for each
    product code, the +1/-1 buttons that call `/api/updateStock` and repeat
    its clamp locally on success, and the stock status chips. */
module InventoryPage {
  import opened Optional
  import opened Catalog
  import UpdateStock

  /** Quantities by product code. */
  type Quantities = map<string, int>

  /** `code` is a key exactly when some product has it, and it holds the
      quantity of the last product with that code. */
  ghost predicate QuantitiesOf(m: Quantities, data: seq<Product>) {
    && (forall code :: code in m <==> exists i :: 0 <= i < |data| && data[i].code == code)
    && (forall i :: 0 <= i < |data| && (forall j :: i < j < |data| ==> data[j].code != data[i].code) ==>
          data[i].code in m && m[data[i].code] == data[i].quantity)
  }

  /** The map after assigning every product's quantity to its code, in order. */
  function Tally(data: seq<Product>): (m: Quantities)
    ensures data != [] ==> data[|data| - 1].code in m && m[data[|data| - 1].code] == data[|data| - 1].quantity
    ensures |m| <= |data|
  {
    if data == [] then map[]
    else Tally(data[..|data| - 1])[data[|data| - 1].code := data[|data| - 1].quantity]
  }

  /** The tally has a key for exactly the codes of the products. */
  lemma {:induction false} TallyKeys(data: seq<Product>)
    ensures forall code :: code in Tally(data) <==> exists i :: 0 <= i < |data| && data[i].code == code
  {
    if data != [] {
      var n := |data| - 1;
      var front := data[..n];
      TallyKeys(front);
      forall code ensures code in Tally(data) <==> exists i :: 0 <= i < |data| && data[i].code == code {
        if code == data[n].code {
          assert data[n].code == code;
        } else if code in Tally(front) {
          var i :| 0 <= i < |front| && front[i].code == code;
          assert data[i].code == code;
        } else {
          assert forall i :: 0 <= i < n ==> front[i] == data[i];
        }
      }
    }
  }

  /** Each code holds the quantity of the last product with that code. */
  lemma {:induction false} TallyLastWins(data: seq<Product>)
    ensures forall i :: 0 <= i < |data| && (forall j :: i < j < |data| ==> data[j].code != data[i].code) ==>
      data[i].code in Tally(data) && Tally(data)[data[i].code] == data[i].quantity
  {
    if data != [] {
      var n := |data| - 1;
      var front := data[..n];
      TallyLastWins(front);
      forall i | 0 <= i < |data| && (forall j :: i < j < |data| ==> data[j].code != data[i].code)
        ensures data[i].code in Tally(data) && Tally(data)[data[i].code] == data[i].quantity
      {
        if i < n {
          assert front[i] == data[i];
          assert data[n].code != data[i].code;
          assert forall j :: i < j < n ==> front[j].code != front[i].code;
        }
      }
    }
  }

  /** `qtyMap`, filled product by product: a later product with the same code overwrites. */
  method BuildQuantityMap(data: seq<Product>) returns (m: Quantities)
    ensures m == Tally(data)
    ensures QuantitiesOf(m, data)
  {
    m := map[];
    var i := 0;
    while i < |data|
      invariant 0 <= i <= |data|
      invariant m == Tally(data[..i])
    {
      assert data[..i + 1][..i] == data[..i];
      m := m[data[i].code := data[i].quantity];
      i := i + 1;
    }
    assert data[..i] == data;
    TallyKeys(data);
    TallyLastWins(data);
  }

  /** A map meeting `QuantitiesOf` is unique: the page state after a fetch
      depends only on the products received. */
  lemma QuantitiesOfIsUnique(m1: Quantities, m2: Quantities, data: seq<Product>)
    requires QuantitiesOf(m1, data) && QuantitiesOf(m2, data)
    ensures m1 == m2
  {
    forall code | code in m1 ensures code in m2 && m1[code] == m2[code] {
      var i :| 0 <= i < |data| && data[i].code == code;
      var last := LastWithCode(data, code, i);
    }
  }

  /** The position of the last product with `code`, found from a known one. */
  lemma LastWithCode(data: seq<Product>, code: string, i: int) returns (last: int)
    requires 0 <= i < |data| && data[i].code == code
    ensures i <= last < |data| && data[last].code == code
    ensures forall j :: last < j < |data| ==> data[j].code != code
    decreases |data| - i
  {
    if j :| i < j < |data| && data[j].code == code {
      last := LastWithCode(data, code, j);
    } else {
      last := i;
    }
  }

  /** The local quantity after a successful update: a missing key counts as
      0, and the result is clamped at 0 like the server's. */
  function AfterUpdate(quantities: Quantities, code: string, delta: int): (m: Quantities)
    ensures m.Keys == quantities.Keys + {code}
    ensures m[code] == UpdateStock.Restocked(if code in quantities then quantities[code] else 0, delta)
    ensures forall k :: k in quantities && k != code ==> m[k] == quantities[k]
  {
    var current := if code in quantities then quantities[code] else 0;
    quantities[code := if current + delta < 0 then 0 else current + delta]
  }

  /** The page shows what the table holds: when the shown quantity of `code`
      equals the quantity of a row with that code, it still does after the
      same delta is applied on both sides. */
  lemma ClientFollowsServer(rows: seq<Product>, quantities: Quantities, code: string, delta: int, i: int)
    requires 0 <= i < |rows| && rows[i].code == code
    requires code in quantities && quantities[code] == rows[i].quantity
    ensures AfterUpdate(quantities, code, delta)[code] == UpdateStock.ApplyDelta(rows, code, delta)[i].quantity
  {
  }

  /** The "Sem estoque" and "Estoque baixo" chips. */
  datatype Chip = OutOfStock | LowStock

  /** The chips shown next to a product. */
  function StatusChips(quantities: Quantities, code: string): (chips: seq<Chip>)
    ensures |chips| <= 1
    ensures OutOfStock in chips <==> code in quantities && quantities[code] == 0
    ensures LowStock in chips <==> code in quantities && 0 < quantities[code] < 10
  {
    if code in quantities && quantities[code] == 0 then [OutOfStock]
    else if code in quantities && 0 < quantities[code] < 10 then [LowStock]
    else []
  }

  /** The minus button is disabled when the shown quantity is exactly 0. */
  predicate DecrementDisabled(quantities: Quantities, code: string) {
    code in quantities && quantities[code] == 0
  }

  /** Disabling the minus button is the same as showing "Sem estoque". */
  lemma DisabledExactlyWhenOutOfStock(quantities: Quantities, code: string)
    ensures DecrementDisabled(quantities, code) <==> OutOfStock in StatusChips(quantities, code)
  {
  }

  class InventoryPage {
    var products: seq<Product>
    var quantities: Quantities

    constructor ()
      ensures products == [] && quantities == map[]
    {
      products := [];
      quantities := map[];
    }

    /** `fetchProducts`: on an answer, shows its products and rebuilds the
        quantities; on a failed request, keeps what was shown. */
    method FetchProducts(answer: Option<seq<Product>>)
      modifies this
      ensures answer.None? ==> products == old(products) && quantities == old(quantities)
      ensures answer.Some? ==> products == answer.value && QuantitiesOf(quantities, answer.value)
    {
      if answer.Some? {
        products := answer.value;
        quantities := BuildQuantityMap(answer.value);
      }
    }

    /** `updateStock`: when the server accepted the delta (`accepted`), the
        shown quantity of `code` moves by it, clamped at 0; otherwise nothing changes. */
    method UpdateStock(code: string, delta: int, accepted: bool)
      modifies this
      ensures products == old(products)
      ensures accepted ==> quantities == AfterUpdate(old(quantities), code, delta)
      ensures !accepted ==> quantities == old(quantities)
    {
      if accepted {
        var current := if code in quantities then quantities[code] else 0;
        quantities := quantities[code := if 0 < current + delta then current + delta else 0];
      }
    }

    /** The plus button. */
    method HandleIncrement(code: string, accepted: bool)
      modifies this
      ensures products == old(products)
      ensures accepted ==> quantities == AfterUpdate(old(quantities), code, 1)
      ensures !accepted ==> quantities == old(quantities)
    {
      UpdateStock(code, 1, accepted);
    }

    /** The minus button. */
    method HandleDecrement(code: string, accepted: bool)
      modifies this
      ensures products == old(products)
      ensures accepted ==> quantities == AfterUpdate(old(quantities), code, -1)
      ensures !accepted ==> quantities == old(quantities)
    {
      UpdateStock(code, -1, accepted);
    }
  }

  /** A shown quantity never becomes negative through the buttons: from a
      non-negative map, any accepted update keeps every value non-negative. */
  lemma UpdatesKeepStock(quantities: Quantities, code: string, delta: int)
    requires forall k :: k in quantities ==> quantities[k] >= 0
    ensures forall k :: k in AfterUpdate(quantities, code, delta) ==> AfterUpdate(quantities, code, delta)[k] >= 0
  {
  }

  /** Pressing minus on a quantity of 1 shows "Sem estoque" and disables the button. */
  lemma LastUnitDisablesDecrement(quantities: Quantities, code: string)
    requires code in quantities && quantities[code] == 1
    ensures DecrementDisabled(AfterUpdate(quantities, code, -1), code)
    ensures StatusChips(AfterUpdate(quantities, code, -1), code) == [OutOfStock]
  {
  }
}

=== FILE: logs_api.dfy ===
/** The audit-log endpoint `/api/logs` (pages/api/logs.ts): a store of log
    entries that GET filters, orders newest first and pages, POST appends to,
    and DELETE removes from. The PostgreSQL table becomes a sequence of
    entries in insertion order plus the next serial id; each SQL statement
    becomes its intended effect on that sequence. */
module LogsApi {
  import opened Optional
  import Text

  /** One row of the `logs` table. */
  datatype LogEntry = LogEntry(
    id: int,
    action: string,
    description: string,
    userId: Option<int>,
    userEmail: Option<string>,
    productCode: Option<string>,
    productName: Option<string>,
    createdAt: int,
    ipAddress: Option<string>)

  /** A request value counts only when JavaScript finds it truthy: present and non-empty. */
  predicate Given(v: Option<string>) {
    v.Some? && v.value != ""
  }

  // ---------------------------------------------------------------------------
  // Filters
  // ---------------------------------------------------------------------------

  /** The filter part of a GET query string; a date that is absent or empty is `None`. */
  datatype Filters = Filters(
    action: Option<string>,
    user: Option<string>,
    product: Option<string>,
    startDate: Option<int>,
    endDate: Option<int>)

  /** What the filters select, stated directly: exact action, case-insensitive
      substring of the e-mail, case-insensitive substring of the product name
      or code, inclusive date bounds; an absent filter leaves its attribute open. */
  predicate Matches(f: Filters, e: LogEntry) {
    && (Given(f.action) ==> e.action == f.action.value)
    && (Given(f.user) ==>
          e.userEmail.Some? && Text.ContainsIgnoreCase(e.userEmail.value, f.user.value))
    && (Given(f.product) ==>
          || (e.productName.Some? && Text.ContainsIgnoreCase(e.productName.value, f.product.value))
          || (e.productCode.Some? && Text.ContainsIgnoreCase(e.productCode.value, f.product.value)))
    && (f.startDate.Some? ==> f.startDate.value <= e.createdAt)
    && (f.endDate.Some? ==> e.createdAt <= f.endDate.value)
  }

  /** One `AND` clause appended to the WHERE, holding the parameter the handler pushes for it. */
  datatype Clause =
    | ActionIs(action: string)        // l.action = $n
    | UserLike(pattern: string)       // (l.user_email ILIKE $n OR l.user_id::text = $n)
    | ProductLike(pattern: string)    // (l.product_name ILIKE $n OR l.product_code ILIKE $n)
    | CreatedFrom(start: int)         // l.created_at >= $n
    | CreatedUntil(end: int)          // l.created_at <= $n

  /** The LIKE pattern `%s%` the handler pushes for the user and product filters. */
  function Wrapped(s: string): string {
    "%" + s + "%"
  }

  /** `value ILIKE pattern` for the patterns the handler builds: a leading and a
      trailing `%` around a wildcard-free text, or a text with no wildcard at all. */
  predicate ILike(value: string, pattern: string) {
    if |pattern| >= 2 && pattern[0] == '%' && pattern[|pattern| - 1] == '%'
    then Text.ContainsIgnoreCase(value, pattern[1..|pattern| - 1])
    else Text.Lower(value) == Text.Lower(pattern)
  }

  /** An ILIKE on a nullable column: NULL never satisfies a WHERE clause. */
  predicate NullableILike(column: Option<string>, pattern: string) {
    column.Some? && ILike(column.value, pattern)
  }

  /** SQL truth of one clause for one row. */
  predicate Holds(c: Clause, e: LogEntry) {
    match c
    case ActionIs(a) => e.action == a
    case UserLike(p) =>
      NullableILike(e.userEmail, p) || (e.userId.Some? && Text.IntToText(e.userId.value) == p)
    case ProductLike(p) => NullableILike(e.productName, p) || NullableILike(e.productCode, p)
    case CreatedFrom(t) => e.createdAt >= t
    case CreatedUntil(t) => e.createdAt <= t
  }

  /** `WHERE 1=1 AND c1 AND c2 ...` */
  predicate AllHold(cs: seq<Clause>, e: LogEntry) {
    forall i :: 0 <= i < |cs| ==> Holds(cs[i], e)
  }

  /** The clauses, in the order action, user, product, start date, end date:
      one per given filter, and none at all exactly when no filter is given. */
  function FilterClauses(f: Filters): (cs: seq<Clause>)
    ensures |cs| <= 5
    ensures cs == [] <==>
      !Given(f.action) && !Given(f.user) && !Given(f.product) && f.startDate.None? && f.endDate.None?
    ensures Given(f.action) ==> cs[0] == ActionIs(f.action.value)
    ensures |cs| == (if Given(f.action) then 1 else 0) + (if Given(f.user) then 1 else 0)
                    + (if Given(f.product) then 1 else 0) + (if f.startDate.Some? then 1 else 0)
                    + (if f.endDate.Some? then 1 else 0)
  {
    var c1 := if Given(f.action) then [ActionIs(f.action.value)] else [];
    var c2 := c1 + if Given(f.user) then [UserLike(Wrapped(f.user.value))] else [];
    var c3 := c2 + if Given(f.product) then [ProductLike(Wrapped(f.product.value))] else [];
    var c4 := c3 + if f.startDate.Some? then [CreatedFrom(f.startDate.value)] else [];
    c4 + if f.endDate.Some? then [CreatedUntil(f.endDate.value)] else []
  }

  lemma AllHoldConcat(a: seq<Clause>, b: seq<Clause>, e: LogEntry)
    ensures AllHold(a + b, e) <==> AllHold(a, e) && AllHold(b, e)
  {
    if AllHold(a, e) && AllHold(b, e) {
      forall i | 0 <= i < |a + b| ensures Holds((a + b)[i], e) {
        if i >= |a| { assert (a + b)[i] == b[i - |a|]; }
      }
    }
    if AllHold(a + b, e) {
      forall i | 0 <= i < |a| ensures Holds(a[i], e) {
        assert (a + b)[i] == a[i];
      }
      forall i | 0 <= i < |b| ensures Holds(b[i], e) {
        assert (a + b)[|a| + i] == b[i];
      }
    }
  }

  /** A clause that is pushed only when `present`. */
  lemma OptionalClause(present: bool, c: Clause, e: LogEntry)
    ensures AllHold(if present then [c] else [], e) <==> (present ==> Holds(c, e))
  {
    if present { assert [c][0] == c; }
  }

  /** A user id rendered as text never equals a `%`-wrapped pattern, so the
      `l.user_id::text = $n` half of the user clause can never be true. */
  lemma UserIdBranchNeverMatches(id: int, user: string)
    ensures Text.IntToText(id) != Wrapped(user)
  {
    var t := Text.IntToText(id);
    assert t[0] != '%';
    assert Wrapped(user)[0] == '%';
  }

  lemma ILikeWrapped(value: string, s: string)
    ensures ILike(value, Wrapped(s)) <==> Text.ContainsIgnoreCase(value, s)
  {
    var p := Wrapped(s);
    assert p[1..|p| - 1] == s;
  }

  /** The user clause matches exactly the entries whose e-mail contains the
      filter text, ignoring case; entries without an e-mail never match. */
  lemma UserClauseMeaning(user: string, e: LogEntry)
    ensures Holds(UserLike(Wrapped(user)), e) <==>
            e.userEmail.Some? && Text.ContainsIgnoreCase(e.userEmail.value, user)
  {
    if e.userEmail.Some? { ILikeWrapped(e.userEmail.value, user); }
    if e.userId.Some? { UserIdBranchNeverMatches(e.userId.value, user); }
  }

  /** The clauses the handler builds select exactly what `Matches` describes. */
  lemma ClausesMeaning(f: Filters, e: LogEntry)
    ensures AllHold(FilterClauses(f), e) <==> Matches(f, e)
  {
    var c1 := if Given(f.action) then [ActionIs(f.action.value)] else [];
    var c2u := if Given(f.user) then [UserLike(Wrapped(f.user.value))] else [];
    var c3p := if Given(f.product) then [ProductLike(Wrapped(f.product.value))] else [];
    var c4s := if f.startDate.Some? then [CreatedFrom(f.startDate.value)] else [];
    var c5e := if f.endDate.Some? then [CreatedUntil(f.endDate.value)] else [];
    assert FilterClauses(f) == c1 + c2u + c3p + c4s + c5e;
    AllHoldConcat(c1 + c2u + c3p + c4s, c5e, e);
    AllHoldConcat(c1 + c2u + c3p, c4s, e);
    AllHoldConcat(c1 + c2u, c3p, e);
    AllHoldConcat(c1, c2u, e);
    OptionalClause(Given(f.action), ActionIs(f.action.GetOr("")), e);
    OptionalClause(Given(f.user), UserLike(Wrapped(f.user.GetOr(""))), e);
    OptionalClause(Given(f.product), ProductLike(Wrapped(f.product.GetOr(""))), e);
    OptionalClause(f.startDate.Some?, CreatedFrom(f.startDate.GetOr(0)), e);
    OptionalClause(f.endDate.Some?, CreatedUntil(f.endDate.GetOr(0)), e);
    if Given(f.user) {
      UserClauseMeaning(f.user.value, e);
    }
    if Given(f.product) {
      if e.productName.Some? { ILikeWrapped(e.productName.value, f.product.value); }
      if e.productCode.Some? { ILikeWrapped(e.productCode.value, f.product.value); }
    }
  }

  /** With no filter given the WHERE has no clause, and every entry matches. */
  lemma NoFiltersNoClauses(f: Filters, e: LogEntry)
    requires !Given(f.action) && !Given(f.user) && !Given(f.product)
    requires f.startDate.None? && f.endDate.None?
    ensures FilterClauses(f) == []
    ensures Matches(f, e)
  {
  }

  /** The user filter ignores case on both sides: e-mails equal up to case,
      searched with texts equal up to case, match alike. */
  lemma UserFilterIgnoresCase(e1: LogEntry, e2: LogEntry, u1: string, u2: string)
    requires e1.userEmail.Some? <==> e2.userEmail.Some?
    requires e1.userEmail.Some? ==> Text.Lower(e1.userEmail.value) == Text.Lower(e2.userEmail.value)
    requires Text.Lower(u1) == Text.Lower(u2)
    ensures Matches(Filters(None, Some(u1), None, None, None), e1)
        <==> Matches(Filters(None, Some(u2), None, None, None), e2)
  {
  }

  // ---------------------------------------------------------------------------
  // Selection, ordering and paging
  // ---------------------------------------------------------------------------

  /** The rows a WHERE with clauses `cs` selects, in table order. */
  function Where(cs: seq<Clause>, s: seq<LogEntry>): (r: seq<LogEntry>)
    ensures |r| <= |s|
    ensures forall e :: e in r <==> e in s && AllHold(cs, e)
    ensures forall e :: multiset(r)[e] == if AllHold(cs, e) then multiset(s)[e] else 0
  {
    if s == [] then []
    else
      assert s == [s[0]] + s[1..];
      (if AllHold(cs, s[0]) then [s[0]] else []) + Where(cs, s[1..])
  }

  /** A WHERE without clauses keeps every row. */
  lemma {:induction false} WhereNoClauses(s: seq<LogEntry>)
    ensures Where([], s) == s
  {
    if s != [] {
      WhereNoClauses(s[1..]);
      assert s == [s[0]] + s[1..];
    }
  }

  /** `ORDER BY created_at DESC`, with ties broken by the larger id first
      (the table leaves ties unordered; this model fixes one order). */
  predicate ComesBefore(a: LogEntry, b: LogEntry) {
    a.createdAt > b.createdAt || (a.createdAt == b.createdAt && a.id >= b.id)
  }

  predicate NewestFirst(s: seq<LogEntry>) {
    forall i, j :: 0 <= i < j < |s| ==> ComesBefore(s[i], s[j])
  }

  /** `e` placed before the first entry it may precede. */
  function Insert(e: LogEntry, s: seq<LogEntry>): (r: seq<LogEntry>)
    ensures multiset(r) == multiset(s) + multiset{e}
  {
    if s == [] || ComesBefore(e, s[0]) then [e] + s
    else
      assert s == [s[0]] + s[1..];
      [s[0]] + Insert(e, s[1..])
  }

  lemma {:induction false} InsertKeepsOrder(e: LogEntry, s: seq<LogEntry>)
    requires NewestFirst(s)
    ensures NewestFirst(Insert(e, s))
  {
    if s == [] || ComesBefore(e, s[0]) {
      var r := [e] + s;
      forall i, j | 0 <= i < j < |r| ensures ComesBefore(r[i], r[j]) {
        if i == 0 && j > 1 {
          assert ComesBefore(s[0], s[j - 1]);
        }
      }
    } else {
      var rest := Insert(e, s[1..]);
      InsertKeepsOrder(e, s[1..]);
      var r := [s[0]] + rest;
      forall k | 0 <= k < |rest| ensures ComesBefore(s[0], rest[k]) {
        assert rest[k] in multiset(s[1..]) + multiset{e};
        if rest[k] != e {
          assert rest[k] in s[1..];
        }
      }
      forall i, j | 0 <= i < j < |r| ensures ComesBefore(r[i], r[j]) {
        if i > 0 {
          assert r[i] == rest[i - 1] && r[j] == rest[j - 1];
        } else {
          assert r[j] == rest[j - 1];
        }
      }
    }
  }

  /** The matches in result order: newest first. */
  function SortNewestFirst(s: seq<LogEntry>): (r: seq<LogEntry>)
    ensures multiset(r) == multiset(s)
    ensures NewestFirst(r)
  {
    if s == [] then []
    else
      assert s == [s[0]] + s[1..];
      var sortedTail := SortNewestFirst(s[1..]);
      InsertKeepsOrder(s[0], sortedTail);
      Insert(s[0], sortedTail)
  }

  function Min(a: int, b: int): int {
    if a <= b then a else b
  }

  /** `LIMIT limit OFFSET offset` on an ordered result. */
  function Window(s: seq<LogEntry>, offset: nat, limit: nat): (r: seq<LogEntry>)
    ensures |r| == if offset >= |s| then 0 else Min(limit, |s| - offset)
    ensures forall k :: 0 <= k < |r| ==> r[k] == s[offset + k]
  {
    if offset >= |s| then [] else s[offset..Min(offset + limit, |s|)]
  }

  /** `Math.ceil(total / limit)`. */
  function TotalPages(total: nat, limit: nat): (pages: nat)
    requires limit >= 1
    ensures pages * limit >= total
    ensures pages == 0 || (pages - 1) * limit < total
  {
    var q := (total + limit - 1) / limit;
    assert q * limit + (total + limit - 1) % limit == total + limit - 1;
    q
  }

  /** A page window of an ordered result is ordered, and every item on it is one of the matches. */
  lemma WindowOfOrdered(s: seq<LogEntry>, offset: nat, limit: nat)
    requires NewestFirst(s)
    ensures NewestFirst(Window(s, offset, limit))
    ensures forall e :: e in Window(s, offset, limit) ==> e in s
  {
    var w := Window(s, offset, limit);
    forall e | e in w ensures e in s {
      var k :| 0 <= k < |w| && w[k] == e;
      assert s[offset + k] == e;
    }
  }

  /** Every item on a page is a match, the page is ordered, and it holds no
      more than `limit` items and no more than the count of matches. */
  lemma PageOfMatches(s: seq<LogEntry>, f: Filters, offset: nat, limit: nat)
    ensures var items := Window(SortNewestFirst(Where(FilterClauses(f), s)), offset, limit);
      && |items| <= limit
      && |items| <= |Where(FilterClauses(f), s)|
      && NewestFirst(items)
      && (forall e :: e in items ==> e in s && Matches(f, e))
  {
    var matches := Where(FilterClauses(f), s);
    var ordered := SortNewestFirst(matches);
    var items := Window(ordered, offset, limit);
    WindowOfOrdered(ordered, offset, limit);
    assert |ordered| == |multiset(ordered)| == |multiset(matches)| == |matches|;
    forall e | e in items ensures e in s && Matches(f, e) {
      assert e in multiset(matches);
      ClausesMeaning(f, e);
    }
  }

  /** Past the last page there is nothing: every page number above
      `TotalPages` starts at or after the last match. */
  lemma PastLastPageIsEmpty(s: seq<LogEntry>, page: int, limit: int)
    requires limit >= 1 && page > TotalPages(|s|, limit)
    ensures Window(s, (page - 1) * limit, limit) == []
  {
    var pages := TotalPages(|s|, limit);
    MultiplyMonotone(page - 1, pages, limit);
  }

  /** Pages 1 to `n` of `s`, one after the other. */
  function FirstPages(s: seq<LogEntry>, limit: nat, n: nat): seq<LogEntry>
  {
    if n == 0 then [] else FirstPages(s, limit, n - 1) + Window(s, (n - 1) * limit, limit)
  }

  /** Consecutive pages tile the list: pages 1 to `n` together are its first
      `n * limit` elements, each exactly once and in order. */
  lemma {:induction false} FirstPagesArePrefix(s: seq<LogEntry>, limit: nat, n: nat)
    ensures FirstPages(s, limit, n) == s[..Min(n * limit, |s|)]
  {
    if n > 0 {
      FirstPagesArePrefix(s, limit, n - 1);
      var o := (n - 1) * limit;
      NextPageStart(n, limit);
      var w := Window(s, o, limit);
      if o >= |s| {
        assert w == [];
      } else {
        var b := Min(o + limit, |s|);
        assert w == s[o..b];
        assert s[..o] + s[o..b] == s[..b];
      }
    }
  }

  lemma NextPageStart(n: nat, limit: nat)
    requires n > 0
    ensures n * limit == (n - 1) * limit + limit
  {
  }

  /** Pages 1 to `TotalPages` together hold every match exactly once, in order. */
  lemma PagesCoverAllMatches(s: seq<LogEntry>, limit: nat)
    requires limit >= 1
    ensures FirstPages(s, limit, TotalPages(|s|, limit)) == s
  {
    FirstPagesArePrefix(s, limit, TotalPages(|s|, limit));
    assert s[..|s|] == s;
  }

  lemma MultiplyMonotone(a: int, b: int, c: int)
    requires a >= b && c >= 0
    ensures a * c >= b * c
  {
    assert a * c - b * c == (a - b) * c;
  }

  /** The number of items on page `page` of `total` ordered matches. */
  lemma PageSize(s: seq<LogEntry>, page: int, limit: int)
    requires page >= 1 && limit >= 1
    ensures (page - 1) * limit >= 0
    ensures |Window(s, (page - 1) * limit, limit)| ==
            if (page - 1) * limit >= |s| then 0 else Min(limit, |s| - (page - 1) * limit)
  {
    assert (page - 1) * limit >= 0 by { assert page - 1 >= 0; }
  }

  /** Twenty-five matches, ten per page: three pages, five items on the third, none on the fourth. */
  lemma {:induction false} TwentyFiveByTen(s: seq<LogEntry>)
    requires |s| == 25
    ensures TotalPages(25, 10) == 3
    ensures |Window(s, (3 - 1) * 10, 10)| == 5
    ensures Window(s, (4 - 1) * 10, 10) == []
  {
    PastLastPageIsEmpty(s, 4, 10);
  }

  /** The pagination envelope of a GET response. */
  datatype Pagination = Pagination(currentPage: int, totalPages: nat, totalItems: nat, itemsPerPage: int)

  // ---------------------------------------------------------------------------
  // Deletion
  // ---------------------------------------------------------------------------

  /** The table after `DELETE FROM logs WHERE id = $1`. */
  function WithoutId(s: seq<LogEntry>, id: int): (r: seq<LogEntry>)
    ensures |r| <= |s|
    ensures forall e :: e in r <==> e in s && e.id != id
  {
    if s == [] then []
    else (if s[0].id == id then [] else [s[0]]) + WithoutId(s[1..], id)
  }

  /** Ids strictly increase along the table: the order of insertion. */
  predicate IdsAscending(s: seq<LogEntry>) {
    forall i, j :: 0 <= i < j < |s| ==> s[i].id < s[j].id
  }

  /** Deleting keeps the remaining rows in insertion order. */
  lemma {:induction false} WithoutIdKeepsOrder(s: seq<LogEntry>, id: int)
    requires IdsAscending(s)
    ensures IdsAscending(WithoutId(s, id))
  {
    if s != [] {
      WithoutIdKeepsOrder(s[1..], id);
      var rest := WithoutId(s[1..], id);
      assert forall x :: x in s[1..] ==> s[0].id < x.id;
      assert forall k :: 0 <= k < |rest| ==> rest[k] in s[1..];
    }
  }

  /** Deleting the same id a second time changes nothing. */
  lemma {:induction false} DeleteIsIdempotent(s: seq<LogEntry>, id: int)
    ensures WithoutId(WithoutId(s, id), id) == WithoutId(s, id)
  {
    if s != [] {
      var tail := WithoutId(s[1..], id);
      DeleteIsIdempotent(s[1..], id);
      if s[0].id != id {
        var once := [s[0]] + tail;
        assert WithoutId(s, id) == once;
        assert once[0] == s[0] && once[1..] == tail;
        assert WithoutId(once, id) == [s[0]] + WithoutId(tail, id);
      } else {
        assert WithoutId(s, id) == tail;
      }
    }
  }

  /** Deleting an id no row has leaves the table as it was. */
  lemma {:induction false} DeleteMissingIdChangesNothing(s: seq<LogEntry>, id: int)
    requires forall e :: e in s ==> e.id != id
    ensures WithoutId(s, id) == s
  {
    if s != [] {
      DeleteMissingIdChangesNothing(s[1..], id);
      assert s == [s[0]] + s[1..];
    }
  }

  /** Ids are unique, so a delete removes at most one row. */
  lemma {:induction false} DeleteRemovesAtMostOne(s: seq<LogEntry>, id: int)
    requires IdsAscending(s)
    ensures |WithoutId(s, id)| >= |s| - 1
  {
    if s != [] {
      if s[0].id == id {
        DeleteMissingIdChangesNothing(s[1..], id);
      } else {
        DeleteRemovesAtMostOne(s[1..], id);
      }
    }
  }

  // ---------------------------------------------------------------------------
  // Requests, responses and the store
  // ---------------------------------------------------------------------------

  /** The JSON body of a POST. */
  datatype LogBody = LogBody(
    action: Option<string>,
    description: Option<string>,
    userId: Option<int>,
    userEmail: Option<string>,
    productCode: Option<string>,
    productName: Option<string>,
    ipAddress: Option<string>)

  /** The query string: page and limit already read as integers, the filters,
      and the id of a DELETE (`None` when absent or empty). */
  datatype QueryParams = QueryParams(page: Option<int>, limit: Option<int>, filters: Filters, id: Option<int>)

  /** The request methods the handler tells apart. */
  datatype HttpMethod = Get | Post | Delete | OtherMethod

  function MethodOf(name: string): (m: HttpMethod)
    ensures m == Get <==> name == "GET"
    ensures m == Post <==> name == "POST"
    ensures m == Delete <==> name == "DELETE"
  {
    if name == "GET" then Get else if name == "POST" then Post else if name == "DELETE" then Delete else OtherMethod
  }

  datatype Request = Request(httpMethod: string, query: QueryParams, body: LogBody)

  datatype Response =
    | LogsPage(logs: seq<LogEntry>, pagination: Pagination)
    | Created(entry: LogEntry)
    | Deleted(message: string)
    | Failed(status: int, error: string)

  const MissingFields := "Action and description are required"
  const MissingId := "Log ID is required"
  const DeletedMessage := "Log entry deleted!"
  const NotAllowed := "Method not allowed"

  /** Page 1 and 20 per page unless the query says otherwise. */
  function PageOf(q: QueryParams): int { q.page.GetOr(1) }
  function LimitOf(q: QueryParams): int { q.limit.GetOr(20) }

  /** The entries on page `page` of the matches of `f`, `limit` per page, newest first. */
  function PageItems(s: seq<LogEntry>, page: int, limit: int, f: Filters): seq<LogEntry>
    requires page >= 1 && limit >= 1
  {
    PageSize(s, page, limit);
    Window(SortNewestFirst(Where(FilterClauses(f), s)), (page - 1) * limit, limit)
  }

  /** The envelope sent with that page: the count of all matches and the pages they fill. */
  function Envelope(s: seq<LogEntry>, page: int, limit: int, f: Filters): Pagination
    requires limit >= 1
  {
    var total := |Where(FilterClauses(f), s)|;
    Pagination(page, TotalPages(total, limit), total, limit)
  }

  class LogStore {
    var entries: seq<LogEntry>
    var nextId: int

    /** Ids increase with insertion and stay below the next serial value. */
    ghost predicate Valid()
      reads this
    {
      && IdsAscending(entries)
      && (forall i :: 0 <= i < |entries| ==> entries[i].id < nextId)
    }

    constructor ()
      ensures Valid()
      ensures entries == [] && nextId == 1
    {
      entries := [];
      nextId := 1;
    }

    /** POST: validates the body and appends one entry with a fresh id and the time `now`. */
    method Record(body: LogBody, now: int) returns (r: Response)
      requires Valid()
      modifies this
      ensures Valid()
      ensures !(Given(body.action) && Given(body.description)) ==>
        && r == Failed(400, MissingFields)
        && entries == old(entries) && nextId == old(nextId)
      ensures Given(body.action) && Given(body.description) ==>
        && r == Created(LogEntry(old(nextId), body.action.value, body.description.value,
                                 body.userId, body.userEmail, body.productCode, body.productName,
                                 now, body.ipAddress))
        && entries == old(entries) + [r.entry]
        && nextId == old(nextId) + 1
        && (forall e :: e in old(entries) ==> e.id < r.entry.id)
    {
      if !Given(body.action) || !Given(body.description) {
        return Failed(400, MissingFields);
      }
      var entry := LogEntry(nextId, body.action.value, body.description.value,
                            body.userId, body.userEmail, body.productCode, body.productName,
                            now, body.ipAddress);
      entries := entries + [entry];
      nextId := nextId + 1;
      r := Created(entry);
    }

    /** The clauses for a filter set, pushed one by one as the handler does for
        the page query and again for the count query. */
    static method BuildClauses(f: Filters) returns (params: seq<Clause>)
      ensures params == FilterClauses(f)
      ensures forall e :: AllHold(params, e) <==> Matches(f, e)
    {
      params := [];
      if Given(f.action) {
        params := params + [ActionIs(f.action.value)];
      }
      if Given(f.user) {
        params := params + [UserLike(Wrapped(f.user.value))];
      }
      if Given(f.product) {
        params := params + [ProductLike(Wrapped(f.product.value))];
      }
      if f.startDate.Some? {
        params := params + [CreatedFrom(f.startDate.value)];
      }
      if f.endDate.Some? {
        params := params + [CreatedUntil(f.endDate.value)];
      }
      assert params == FilterClauses(f);
      forall e ensures AllHold(params, e) <==> Matches(f, e) {
        ClausesMeaning(f, e);
      }
    }

    /** GET: one page of the matches, newest first, and the envelope from a
        separate count with the same clauses. */
    method Query(page: int, limit: int, f: Filters) returns (items: seq<LogEntry>, envelope: Pagination)
      requires page >= 1 && limit >= 1
      ensures items == PageItems(entries, page, limit, f)
      ensures envelope == Envelope(entries, page, limit, f)
      ensures envelope.currentPage == page && envelope.itemsPerPage == limit
      ensures envelope.totalItems == |Where(FilterClauses(f), entries)|
      ensures envelope.totalPages == TotalPages(envelope.totalItems, limit)
      ensures |items| <= limit && |items| <= envelope.totalItems
      ensures NewestFirst(items)
      ensures forall e :: e in items ==> e in entries && Matches(f, e)
    {
      var pageClauses := BuildClauses(f);
      PageSize([], page, limit);
      var offset := (page - 1) * limit;
      items := Window(SortNewestFirst(Where(pageClauses, entries)), offset, limit);
      PageOfMatches(entries, f, offset, limit);

      var countClauses := BuildClauses(f);
      var totalCount := |Where(countClauses, entries)|;
      envelope := Pagination(page, TotalPages(totalCount, limit), totalCount, limit);
    }

    /** DELETE: removes every row with the id and reports success whether or not one existed. */
    method Remove(id: Option<int>) returns (r: Response)
      requires Valid()
      modifies this
      ensures Valid() && nextId == old(nextId)
      ensures id.None? ==> r == Failed(400, MissingId) && entries == old(entries)
      ensures id.Some? ==> r == Deleted(DeletedMessage) && entries == WithoutId(old(entries), id.value)
    {
      if id.None? {
        return Failed(400, MissingId);
      }
      WithoutIdKeepsOrder(entries, id.value);
      entries := WithoutId(entries, id.value);
      r := Deleted(DeletedMessage);
    }

    /** The handler: dispatch on the HTTP method; anything but GET, POST and DELETE is refused. */
    method Handle(req: Request, now: int) returns (r: Response)
      requires Valid()
      requires MethodOf(req.httpMethod) == Get ==> PageOf(req.query) >= 1 && LimitOf(req.query) >= 1
      modifies this
      ensures Valid()
      ensures MethodOf(req.httpMethod) in {Get, OtherMethod} ==>
        entries == old(entries) && nextId == old(nextId)
      ensures MethodOf(req.httpMethod) == Get ==>
        r == LogsPage(PageItems(entries, PageOf(req.query), LimitOf(req.query), req.query.filters),
                      Envelope(entries, PageOf(req.query), LimitOf(req.query), req.query.filters))
      ensures MethodOf(req.httpMethod) == Post && !(Given(req.body.action) && Given(req.body.description)) ==>
        && r == Failed(400, MissingFields)
        && entries == old(entries) && nextId == old(nextId)
      ensures MethodOf(req.httpMethod) == Post && Given(req.body.action) && Given(req.body.description) ==>
        && r == Created(LogEntry(old(nextId), req.body.action.value, req.body.description.value,
                                 req.body.userId, req.body.userEmail, req.body.productCode, req.body.productName,
                                 now, req.body.ipAddress))
        && entries == old(entries) + [r.entry]
        && nextId == old(nextId) + 1
      ensures MethodOf(req.httpMethod) == Delete ==>
        && nextId == old(nextId)
        && if req.query.id.Some? then r == Deleted(DeletedMessage) && entries == WithoutId(old(entries), req.query.id.value)
           else r == Failed(400, MissingId) && entries == old(entries)
      ensures MethodOf(req.httpMethod) == OtherMethod ==> r == Failed(405, NotAllowed)
    {
      match MethodOf(req.httpMethod)
      case Get =>
        var items, envelope := Query(PageOf(req.query), LimitOf(req.query), req.query.filters);
        r := LogsPage(items, envelope);
      case Post =>
        r := Record(req.body, now);
      case Delete =>
        r := Remove(req.query.id);
      case OtherMethod =>
        r := Failed(405, NotAllowed);
    }
  }

  /** With no filter given, the count is the number of rows in the table. */
  lemma CountWithoutFilters(f: Filters, s: seq<LogEntry>)
    requires !Given(f.action) && !Given(f.user) && !Given(f.product)
    requires f.startDate.None? && f.endDate.None?
    ensures |Where(FilterClauses(f), s)| == |s|
  {
    NoFiltersNoClauses(f, if s == [] then LogEntry(0, "", "", None, None, None, None, 0, None) else s[0]);
    WhereNoClauses(s);
  }
}

=== FILE: logs_page.dfy ===
/** The activity-log page (pages/main/log.tsx): the colour and icon of each
    action code, the label and PDF text of an entry, the summary counters,
    and the filter and paging state with the requests it sends to
    `/api/logs` and the answers it receives. */
module LogsPage {
  import opened Optional
  import LogsApi

  // ---------------------------------------------------------------------------
  // Colours, icons and labels
  // ---------------------------------------------------------------------------

  datatype Color = Success | Warning | Danger | Primary | Default

  /** The colour table of `getActionColor`. */
  const ActionColors: map<string, Color> := map[
    "PRODUCT_CREATE" := Success,
    "PRODUCT_UPDATE" := Warning,
    "PRODUCT_DELETE" := Danger,
    "USER_LOGIN" := Primary,
    "USER_LOGOUT" := Default,
    "CSV_IMPORT" := Success,
    "CSV_EXPORT" := Primary]

  /** `actionColors[action] || 'default'`: every entry of the table is a
      non-empty colour name, so a listed action gets its colour and any other
      action gets `Default`. */
  function ActionColor(action: string): (c: Color)
    ensures action in ActionColors ==> c == ActionColors[action]
    ensures action !in ActionColors ==> c == Default
  {
    if action in ActionColors then ActionColors[action] else Default
  }

  /** The seven known actions and their colours. */
  lemma KnownActionColors()
    ensures ActionColor("PRODUCT_CREATE") == Success
    ensures ActionColor("PRODUCT_UPDATE") == Warning
    ensures ActionColor("PRODUCT_DELETE") == Danger
    ensures ActionColor("USER_LOGIN") == Primary
    ensures ActionColor("USER_LOGOUT") == Default
    ensures ActionColor("CSV_IMPORT") == Success
    ensures ActionColor("CSV_EXPORT") == Primary
  {
  }

  const DefaultIcon := "📄"

  /** The icon table of `getActionIcon`; the delete action's entry is empty. */
  const ActionIcons: map<string, string> := map[
    "PRODUCT_CREATE" := "➕",
    "PRODUCT_UPDATE" := "✏️",
    "PRODUCT_DELETE" := "",
    "USER_LOGIN" := "🔐",
    "USER_LOGOUT" := "🚪",
    "CSV_IMPORT" := "📥",
    "CSV_EXPORT" := "📤"]

  /** `actionIcons[action] || '📄'`: the table's icon when it is non-empty,
      otherwise the document icon. */
  function ActionIcon(action: string): (icon: string)
    ensures icon != ""
    ensures action in ActionIcons && ActionIcons[action] != "" ==> icon == ActionIcons[action]
    ensures !(action in ActionIcons && ActionIcons[action] != "") ==> icon == DefaultIcon
  {
    if action in ActionIcons && ActionIcons[action] != "" then ActionIcons[action] else DefaultIcon
  }

  /** The delete action's empty entry falls through to the document icon,
      like an unknown action. */
  lemma DeleteHasDefaultIcon()
    ensures ActionIcon("PRODUCT_DELETE") == DefaultIcon
    ensures ActionIcon("PRODUCT_CREATE") != DefaultIcon
  {
  }

  /** The index of the first `_` in `s`, if any. */
  function FirstUnderscore(s: string): (k: Option<nat>)
    ensures k.None? <==> forall j :: 0 <= j < |s| ==> s[j] != '_'
    ensures k.Some? ==> k.value < |s| && s[k.value] == '_' && forall j :: 0 <= j < k.value ==> s[j] != '_'
  {
    if s == [] then None
    else if s[0] == '_' then Some(0)
    else
      var rest := FirstUnderscore(s[1..]);
      if rest.None? then None else Some(rest.value + 1)
  }

  /** `action.replace('_', ' ')`: a string pattern replaces only its first
      occurrence, so only the first underscore becomes a space. */
  function ActionLabel(action: string): (shown: string)
    ensures FirstUnderscore(action).None? ==> shown == action
    ensures FirstUnderscore(action).Some? ==>
      var k := FirstUnderscore(action).value; shown == action[..k] + " " + action[k + 1..]
  {
    if action == [] then []
    else if action[0] == '_' then " " + action[1..]
    else
      var rest := action[1..];
      assert FirstUnderscore(action) ==
        (if FirstUnderscore(rest).None? then None else Some(FirstUnderscore(rest).value + 1));
      if FirstUnderscore(rest).Some? then
        var k := FirstUnderscore(rest).value;
        assert action[..k + 1] == [action[0]] + rest[..k];
        assert action[k + 2..] == rest[k + 1..];
        [action[0]] + ActionLabel(rest)
      else
        [action[0]] + ActionLabel(rest)
  }

  /** Only the first underscore becomes a space: any later ones are kept. */
  lemma LabelReplacesFirstUnderscore(a: string, b: string)
    requires forall j :: 0 <= j < |a| ==> a[j] != '_'
    ensures ActionLabel(a + "_" + b) == a + " " + b
  {
    var s := a + "_" + b;
    var k := FirstUnderscore(s);
    assert s[|a|] == '_';
    assert k.Some?;
    assert forall j :: 0 <= j < |a| ==> s[j] == a[j];
    assert k.value == |a|;
    assert s[..|a|] == a && s[|a| + 1..] == b;
  }

  /** The description column of the PDF: at most 30 characters, then `...`. */
  function Truncated(description: string): (text: string)
    ensures |description| <= 30 ==> text == description
    ensures |description| > 30 ==> |text| == 33 && text[..30] == description[..30] && text[30..] == "..."
  {
    if |description| > 30 then description[..30] + "..." else description
  }

  /** No PDF description is longer than 33 characters, and each starts like the original. */
  lemma TruncatedIsShortPrefix(description: string)
    ensures |Truncated(description)| <= 33
    ensures var t := Truncated(description); var n := if |t| < 30 then |t| else 30; t[..n] == description[..n]
  {
  }

  // ---------------------------------------------------------------------------
  // Counters
  // ---------------------------------------------------------------------------

  /** The distinct non-empty values in `values`: `new Set(xs.filter(x => x).map(...))`. */
  function Distinct(values: seq<Option<string>>): (r: set<string>)
    ensures forall v :: v in r <==> Some(v) in values && v != ""
    ensures |r| <= |values|
  {
    if values == [] then {}
    else
      var rest := Distinct(values[1..]);
      assert values == [values[0]] + values[1..];
      if values[0].Some? && values[0].value != "" then
        assert |{values[0].value} + rest| <= |rest| + 1;
        {values[0].value} + rest
      else rest
  }

  /** No distinct value exactly when no value is filled in. */
  lemma DistinctIsEmpty(values: seq<Option<string>>)
    ensures |Distinct(values)| == 0 <==> forall i :: 0 <= i < |values| ==> !LogsApi.Given(values[i])
  {
    var r := Distinct(values);
    if i :| 0 <= i < |values| && LogsApi.Given(values[i]) {
      assert values[i].value in r;
    }
    if r != {} {
      var v :| v in r;
      assert Some(v) in values;
    }
  }

  function UserEmails(logs: seq<LogsApi.LogEntry>): (r: seq<Option<string>>)
    ensures |r| == |logs| && forall i :: 0 <= i < |logs| ==> r[i] == logs[i].userEmail
  {
    seq(|logs|, i requires 0 <= i < |logs| => logs[i].userEmail)
  }

  function ProductCodes(logs: seq<LogsApi.LogEntry>): (r: seq<Option<string>>)
    ensures |r| == |logs| && forall i :: 0 <= i < |logs| ==> r[i] == logs[i].productCode
  {
    seq(|logs|, i requires 0 <= i < |logs| => logs[i].productCode)
  }

  /** "Usuários Ativos": the number of distinct e-mails on the loaded page. */
  function ActiveUsers(logs: seq<LogsApi.LogEntry>): (n: nat)
    ensures n <= |logs|
    ensures n == 0 <==> forall i :: 0 <= i < |logs| ==> !LogsApi.Given(logs[i].userEmail)
  {
    DistinctIsEmpty(UserEmails(logs));
    |Distinct(UserEmails(logs))|
  }

  /** "Produtos Modificados": the number of distinct product codes on the loaded page. */
  function ModifiedProducts(logs: seq<LogsApi.LogEntry>): (n: nat)
    ensures n <= |logs|
    ensures n == 0 <==> forall i :: 0 <= i < |logs| ==> !LogsApi.Given(logs[i].productCode)
  {
    DistinctIsEmpty(ProductCodes(logs));
    |Distinct(ProductCodes(logs))|
  }

  /** Entries of the same user count once. */
  lemma {:induction false} RepeatedUserCountsOnce(logs: seq<LogsApi.LogEntry>, e: LogsApi.LogEntry)
    requires exists i :: 0 <= i < |logs| && logs[i].userEmail == e.userEmail
    ensures ActiveUsers(logs + [e]) == ActiveUsers(logs)
  {
    var i :| 0 <= i < |logs| && logs[i].userEmail == e.userEmail;
    var before := Distinct(UserEmails(logs));
    var after := Distinct(UserEmails(logs + [e]));
    forall v | v in after ensures v in before {
      var k :| 0 <= k < |logs| + 1 && UserEmails(logs + [e])[k] == Some(v);
      if k == |logs| {
        assert UserEmails(logs)[i] == Some(v);
      } else {
        assert UserEmails(logs)[k] == Some(v);
      }
    }
    forall v | v in before ensures v in after {
      var k :| 0 <= k < |logs| && UserEmails(logs)[k] == Some(v);
      assert UserEmails(logs + [e])[k] == Some(v);
    }
    assert before == after;
  }

  // ---------------------------------------------------------------------------
  // Filters and paging
  // ---------------------------------------------------------------------------

  /** The filter form: every field is text, `""` when unset; dates are the
      date picker's text. */
  datatype UiFilters = UiFilters(action: string, user: string, product: string, startDate: string, endDate: string)

  const EmptyFilters := UiFilters("", "", "", "", "")

  datatype FilterKey = ActionKey | UserKey | ProductKey | StartDateKey | EndDateKey

  function Field(f: UiFilters, key: FilterKey): string {
    match key
    case ActionKey => f.action
    case UserKey => f.user
    case ProductKey => f.product
    case StartDateKey => f.startDate
    case EndDateKey => f.endDate
  }

  /** `{ ...prev, [key]: value }` */
  function WithField(f: UiFilters, key: FilterKey, value: string): (g: UiFilters)
    ensures Field(g, key) == value
    ensures forall k :: k != key ==> Field(g, k) == Field(f, k)
  {
    match key
    case ActionKey => f.(action := value)
    case UserKey => f.(user := value)
    case ProductKey => f.(product := value)
    case StartDateKey => f.(startDate := value)
    case EndDateKey => f.(endDate := value)
  }

  /** A GET the page sends: page, limit and all five filters as query parameters. */
  datatype LogsRequest = LogsRequest(page: int, limit: int, filters: UiFilters)

  /** What the handler reads from such a query: every filter is present as
      text, and a non-empty date is converted by `toTime` (date parsing is
      not part of this model). */
  function ToServerFilters(f: UiFilters, toTime: string -> int): (g: LogsApi.Filters)
    ensures LogsApi.Given(g.action) <==> f.action != ""
    ensures LogsApi.Given(g.user) <==> f.user != ""
    ensures LogsApi.Given(g.product) <==> f.product != ""
    ensures g.startDate.Some? <==> f.startDate != ""
    ensures g.endDate.Some? <==> f.endDate != ""
    ensures g.action == Some(f.action) && g.user == Some(f.user) && g.product == Some(f.product)
    ensures f.startDate != "" ==> g.startDate == Some(toTime(f.startDate))
    ensures f.endDate != "" ==> g.endDate == Some(toTime(f.endDate))
  {
    LogsApi.Filters(Some(f.action), Some(f.user), Some(f.product),
                    if f.startDate == "" then None else Some(toTime(f.startDate)),
                    if f.endDate == "" then None else Some(toTime(f.endDate)))
  }

  /** After `clearFilters` the server adds no clause, so the count covers the whole table. */
  lemma ClearedFiltersSelectEverything(toTime: string -> int, table: seq<LogsApi.LogEntry>)
    ensures LogsApi.FilterClauses(ToServerFilters(EmptyFilters, toTime)) == []
    ensures |LogsApi.Where(LogsApi.FilterClauses(ToServerFilters(EmptyFilters, toTime)), table)| == |table|
  {
    var g := ToServerFilters(EmptyFilters, toTime);
    LogsApi.CountWithoutFilters(g, table);
    LogsApi.NoFiltersNoClauses(g, if table == [] then LogsApi.LogEntry(0, "", "", None, None, None, None, 0, None) else table[0]);
  }

  /** The requests a reset to page 1 sends with filters `f`: `fetchLogs(f)`
      still sees the page before the reset, and when the page number
      actually changed the page effect fetches page 1 again. The reset's own
      requests end with page 1; what their answers do is `EffectRequests`. */
  function ResetRequests(oldPage: int, limit: int, f: UiFilters): (rs: seq<LogsRequest>)
    ensures |rs| >= 1 && rs[0] == LogsRequest(oldPage, limit, f)
    ensures |rs| == 2 <==> oldPage != 1
    ensures |rs| == 2 ==> rs[1] == LogsRequest(1, limit, f)
    ensures |rs| <= 2
    ensures rs[|rs| - 1].page == 1
  {
    [LogsRequest(oldPage, limit, f)] + if oldPage != 1 then [LogsRequest(1, limit, f)] else []
  }

  // ---------------------------------------------------------------------------
  // Answers to the page's requests
  // ---------------------------------------------------------------------------

  /** What `fetchLogs` gets back: the handler's page with its pagination, an
      error status, or no connection at all. */
  datatype LogsAnswer =
    | Listed(logs: seq<LogsApi.LogEntry>, pagination: LogsApi.Pagination)
    | Refused
    | Unreachable

  /** The handler echoes the request's page and limit in its pagination
      (`currentPage: pageNum`, `itemsPerPage: limitNum`), as
      `LogsApi.LogStore.Query` ensures. */
  predicate AnswersRequest(a: LogsAnswer, r: LogsRequest) {
    a.Listed? ==> a.pagination.currentPage == r.page && a.pagination.itemsPerPage == r.limit
  }

  /** The page number after an answer: a listed page replaces the whole
      pagination, anything else leaves it. */
  function PageAfter(shown: int, a: LogsAnswer): int {
    if a.Listed? then a.pagination.currentPage else shown
  }

  /** The page effect, which depends on the page number only: an answer that
      changes the number makes the page fetch the new number, with the limit
      just received and the filters in the form; any other answer sends nothing. */
  function EffectRequests(shown: int, a: LogsAnswer, f: UiFilters): (rs: seq<LogsRequest>)
    ensures |rs| <= 1
    ensures rs != [] <==> PageAfter(shown, a) != shown
    ensures rs != [] ==> a.Listed? && rs[0] == LogsRequest(PageAfter(shown, a), a.pagination.itemsPerPage, f)
  {
    if a.Listed? && a.pagination.currentPage != shown
    then [LogsRequest(a.pagination.currentPage, a.pagination.itemsPerPage, f)]
    else []
  }

  /** The answer to a reset's first request, the one for the old page `p`,
      puts the page back on `p` whatever page is shown, and fetches `p`
      again when another page was shown. */
  lemma OldPageAnswerRestoresPage(p: int, limit: int, f: UiFilters, shown: int, a: LogsAnswer)
    requires a.Listed? && AnswersRequest(a, ResetRequests(p, limit, f)[0])
    ensures PageAfter(shown, a) == p
    ensures shown != p ==> EffectRequests(shown, a, f) == [LogsRequest(p, limit, f)]
  {
  }

  /** A reset from page `p` other than 1 whose page-1 answer arrives first
      ends on page `p`: that answer changes nothing, the old-page answer moves
      the page back to `p` and fetches it, and the answer to that fetch
      changes nothing more. */
  lemma ResetFromLaterPageEndsThere(p: int, limit: int, f: UiFilters, first: LogsAnswer, second: LogsAnswer, third: LogsAnswer)
    requires p != 1
    requires first.Listed? && AnswersRequest(first, ResetRequests(p, limit, f)[1])
    requires second.Listed? && AnswersRequest(second, ResetRequests(p, limit, f)[0])
    requires third.Listed? && AnswersRequest(third, LogsRequest(p, limit, f))
    ensures PageAfter(1, first) == 1 && EffectRequests(1, first, f) == []
    ensures PageAfter(1, second) == p && EffectRequests(1, second, f) == [LogsRequest(p, limit, f)]
    ensures PageAfter(p, third) == p && EffectRequests(p, third, f) == []
  {
  }

  /** When the old-page answer of a reset from page `p` other than 1 arrives
      first, the page moves to `p` and then, with the page-1 answer, back to 1;
      the two fetches these moves trigger are the reset's own requests again.
      The page is back where the reset left it, so the two page numbers keep
      alternating for as long as their answers arrive in that order. */
  lemma ResetAnswersRepeatReset(p: int, limit: int, f: UiFilters, first: LogsAnswer, second: LogsAnswer)
    requires p != 1
    requires first.Listed? && AnswersRequest(first, ResetRequests(p, limit, f)[0])
    requires second.Listed? && AnswersRequest(second, ResetRequests(p, limit, f)[1])
    ensures PageAfter(PageAfter(1, first), second) == 1
    ensures EffectRequests(1, first, f) + EffectRequests(PageAfter(1, first), second, f) == ResetRequests(p, limit, f)
  {
  }

  /** The reset as evidently intended: `fetchLogs` asks for page 1 itself,
      and the page effect asks for page 1 again when the number changed. */
  function IntendedResetRequests(oldPage: int, limit: int, f: UiFilters): (rs: seq<LogsRequest>)
    ensures 1 <= |rs| <= 2
    ensures |rs| == 2 <==> oldPage != 1
    ensures forall i :: 0 <= i < |rs| ==> rs[i] == LogsRequest(1, limit, f)
  {
    [LogsRequest(1, limit, f)] + if oldPage != 1 then [LogsRequest(1, limit, f)] else []
  }

  /** With the intended reset, any answer to any of its requests, in any
      order, keeps page 1 and triggers no further fetch. */
  lemma IntendedResetStaysOnFirstPage(oldPage: int, limit: int, f: UiFilters, i: int, a: LogsAnswer)
    requires 0 <= i < |IntendedResetRequests(oldPage, limit, f)|
    requires AnswersRequest(a, IntendedResetRequests(oldPage, limit, f)[i])
    ensures PageAfter(1, a) == 1 && EffectRequests(1, a, f) == []
  {
  }

  class LogsPageState {
    var filters: UiFilters
    var currentPage: int
    var itemsPerPage: int
    var totalPages: nat
    var totalItems: nat
    var logs: seq<LogsApi.LogEntry>

    constructor ()
      ensures filters == EmptyFilters && currentPage == 1 && itemsPerPage == 20
      ensures totalPages == 1 && totalItems == 0 && logs == []
    {
      filters := EmptyFilters;
      currentPage := 1;
      itemsPerPage := 20;
      totalPages := 1;
      totalItems := 0;
      logs := [];
    }

    /** `handleFilterChange`: one field of the form changes, nothing else. */
    method HandleFilterChange(key: FilterKey, value: string)
      modifies this
      ensures Field(filters, key) == value
      ensures forall k :: k != key ==> Field(filters, k) == Field(old(filters), k)
      ensures currentPage == old(currentPage) && itemsPerPage == old(itemsPerPage)
      ensures totalPages == old(totalPages) && totalItems == old(totalItems) && logs == old(logs)
    {
      filters := WithField(filters, key, value);
    }

    /** `applyFilters`: back to page 1, fetching with the filters in the form. */
    method ApplyFilters() returns (requests: seq<LogsRequest>)
      modifies this
      ensures currentPage == 1
      ensures filters == old(filters) && itemsPerPage == old(itemsPerPage)
      ensures totalPages == old(totalPages) && totalItems == old(totalItems) && logs == old(logs)
      ensures requests == ResetRequests(old(currentPage), itemsPerPage, filters)
    {
      requests := ResetRequests(currentPage, itemsPerPage, filters);
      currentPage := 1;
    }

    /** `clearFilters`: empties all five fields and goes back to page 1. */
    method ClearFilters() returns (requests: seq<LogsRequest>)
      modifies this
      ensures filters == EmptyFilters && currentPage == 1
      ensures itemsPerPage == old(itemsPerPage)
      ensures totalPages == old(totalPages) && totalItems == old(totalItems) && logs == old(logs)
      ensures requests == ResetRequests(old(currentPage), itemsPerPage, EmptyFilters)
    {
      filters := EmptyFilters;
      requests := ResetRequests(currentPage, itemsPerPage, filters);
      currentPage := 1;
    }

    /** `fetchLogs` receiving an answer: a listed page replaces the logs and
        the whole pagination, page number included; an error or a lost
        connection changes nothing. Then the page effect runs when the page
        number changed, and its fetch is returned. */
    method OnAnswer(a: LogsAnswer) returns (requests: seq<LogsRequest>)
      modifies this
      ensures currentPage == PageAfter(old(currentPage), a)
      ensures a.Listed? ==> logs == a.logs && itemsPerPage == a.pagination.itemsPerPage
                            && totalPages == a.pagination.totalPages && totalItems == a.pagination.totalItems
      ensures !a.Listed? ==> logs == old(logs) && itemsPerPage == old(itemsPerPage)
                             && totalPages == old(totalPages) && totalItems == old(totalItems)
      ensures filters == old(filters)
      ensures requests == EffectRequests(old(currentPage), a, filters)
    {
      requests := [];
      if a.Listed? {
        var before := currentPage;
        logs := a.logs;
        currentPage := a.pagination.currentPage;
        totalPages := a.pagination.totalPages;
        totalItems := a.pagination.totalItems;
        itemsPerPage := a.pagination.itemsPerPage;
        if currentPage != before {
          requests := [LogsRequest(currentPage, itemsPerPage, filters)];
        }
      }
    }
  }
}

=== FILE: optional.dfy ===
/** A value that may be absent: an `undefined` field of a request body or of a
    database row (SQL NULL). */
module Optional {

  datatype Option<+T> = None | Some(value: T) {

    /** The value, or `default` when absent. */
    function GetOr(default: T): T {
      match this
      case Some(v) => v
      case None => default
    }
  }
}

=== FILE: products_page.dfy ===
/** The products page (pages/main/index.tsx): registering a product from the
    form, exporting the list as CSV rows, importing CSV rows, and the search
    box. The server (`/api/regprods`) is represented by the replies it gives. */
module ProductsPage {
  import opened Optional
  import opened Catalog
  import Text

  /** The registration form; `supplier` is the chosen supplier's id. */
  datatype ProductForm = ProductForm(name: string, description: string, supplier: string, code: string)

  const EmptyForm := ProductForm("", "", "", "")

  /** The body posted to `/api/regprods`; a `quantity` of `None` is what
      `parseInt` gives for text that is not a number (NaN). */
  datatype Payload = Payload(name: string, description: string, code: string, pType: string, quantity: Option<int>)

  /** How `/api/regprods` answered a POST. */
  datatype Reply =
    | Registered(product: Product)
    | Refused(status: int, error: Option<string>)
    | Unreachable

  const MissingFields := "Preencha todos os campos obrigatórios."
  const ConnectionFailed := "Erro de conexão com o servidor"

  /** The error shown for a refused registration: the server's text, or a
      message with the status code. */
  function RefusalMessage(status: int, error: Option<string>): (m: string)
    ensures error.Some? && error.value != "" ==> m == error.value
    ensures !(error.Some? && error.value != "") ==>
      m == "Erro ao registrar produto (" + Text.IntToText(status) + ")"
  {
    if error.Some? && error.value != "" then error.value
    else "Erro ao registrar produto (" + Text.IntToText(status) + ")"
  }

  /** All four required fields are filled in. */
  predicate FormComplete(form: ProductForm) {
    form.name != "" && form.description != "" && form.supplier != "" && form.code != ""
  }

  /** What `handleSubmit` posts: the form's fields, stock 0, and the supplier as the type. */
  function SubmitPayload(form: ProductForm): (p: Payload)
    ensures p.quantity == Some(0)
    ensures p.pType == form.supplier
    ensures p.name == form.name && p.description == form.description && p.code == form.code
  {
    Payload(form.name, form.description, form.code, form.supplier, Some(0))
  }

  // ---------------------------------------------------------------------------
  // CSV export and import
  // ---------------------------------------------------------------------------

  /** The CSV columns the page writes (Portuguese headers) or reads (the
      Portuguese headers, then the English ones); a record's other columns
      play no part. */
  datatype Header =
    | Nome | Descricao | Codigo | Tipo | Quantidade
    | Name | Description | Code | Type | Quantity

  /** The header text of each column in the file. */
  function HeaderText(h: Header): (t: string)
    ensures t != ""
  {
    match h
    case Nome => "Nome"
    case Descricao => "Descrição"
    case Codigo => "Código"
    case Tipo => "Tipo"
    case Quantidade => "Quantidade"
    case Name => "name"
    case Description => "description"
    case Code => "code"
    case Type => "type"
    case Quantity => "quantity"
  }

  /** One CSV record: cell text by column. */
  type CsvRow = map<Header, string>

  /** The record `handleExportCSV` writes for a product. */
  function ExportRow(p: Product): (row: CsvRow)
    ensures row.Keys == {Nome, Descricao, Codigo, Tipo, Quantidade}
    ensures row[Nome] == p.name && row[Descricao] == p.description && row[Codigo] == p.code
    ensures row[Tipo] == p.pType && row[Quantidade] == Text.IntToText(p.quantity)
  {
    map[Nome := p.name, Descricao := p.description, Codigo := p.code,
        Tipo := p.pType, Quantidade := Text.IntToText(p.quantity)]
  }

  /** `row[preferred] || row[fallback] || default`: the first non-empty cell. */
  function Cell(row: CsvRow, preferred: Header, fallback: Header, default: string): (v: string)
    ensures preferred in row && row[preferred] != "" ==> v == row[preferred]
    ensures !(preferred in row && row[preferred] != "") && fallback in row && row[fallback] != "" ==>
      v == row[fallback]
    ensures !(preferred in row && row[preferred] != "") && !(fallback in row && row[fallback] != "") ==>
      v == default
  {
    if preferred in row && row[preferred] != "" then row[preferred]
    else if fallback in row && row[fallback] != "" then row[fallback]
    else default
  }

  /** The product `handleImportCSV` builds from a record: Portuguese headers
      first, then English ones, then `''` (and `'0'` for the quantity). */
  function ImportRow(row: CsvRow): (p: Payload)
    ensures p.name == Cell(row, Nome, Name, "")
    ensures p.description == Cell(row, Descricao, Description, "")
    ensures p.code == Cell(row, Codigo, Code, "")
    ensures p.pType == Cell(row, Tipo, Type, "")
    ensures p.quantity == Text.ParseInt(Cell(row, Quantidade, Quantity, "0"))
  {
    Payload(Cell(row, Nome, Name, ""), Cell(row, Descricao, Description, ""),
            Cell(row, Codigo, Code, ""), Cell(row, Tipo, Type, ""),
            Text.ParseInt(Cell(row, Quantidade, Quantity, "0")))
  }

  /** A record without a quantity in either column imports with quantity 0. */
  lemma MissingQuantityReadsZero(row: CsvRow)
    requires !(Quantidade in row && row[Quantidade] != "") && !(Quantity in row && row[Quantity] != "")
    ensures ImportRow(row).quantity == Some(0)
  {
    assert Cell(row, Quantidade, Quantity, "0") == "0";
    Text.ParseIntRoundTrip(0);
    assert Text.IntToText(0) == "0";
  }

  /** A record without the Portuguese name and code columns is read from
      the English ones, and is posted exactly when both of those are filled. */
  lemma EnglishHeadersImport(row: CsvRow)
    requires Nome !in row && Codigo !in row
    requires Name in row && Code in row
    ensures ImportRow(row).name == row[Name] && ImportRow(row).code == row[Code]
    ensures Postable(ImportRow(row)) <==> row[Name] != "" && row[Code] != ""
  {
  }

  /** Exporting a product and importing the record recovers its name,
      description, code, type and quantity. */
  lemma ExportThenImport(p: Product)
    ensures ImportRow(ExportRow(p)) == Payload(p.name, p.description, p.code, p.pType, Some(p.quantity))
  {
    var row := ExportRow(p);
    assert Name !in row && Description !in row && Code !in row && Type !in row;
    assert Cell(row, Quantidade, Quantity, "0") == Text.IntToText(p.quantity);
    Text.ParseIntRoundTrip(p.quantity);
  }

  /** Only rows with a name and a code are posted. */
  predicate Postable(p: Payload) {
    p.name != "" && p.code != ""
  }

  /** The products an import appends: one per posted row the server accepted,
      in file order, stopping at the first row whose POST got no answer (the
      error aborts the rest of the import). `replies[i]` is the answer row `i`
      would get. */
  function Imported(payloads: seq<Payload>, replies: seq<Reply>): (added: seq<Product>)
    requires |replies| == |payloads|
    ensures |added| <= |payloads|
  {
    if payloads == [] then []
    else if !Postable(payloads[0]) then Imported(payloads[1..], replies[1..])
    else match replies[0]
      case Registered(p) => [p] + Imported(payloads[1..], replies[1..])
      case Refused(_, _) => Imported(payloads[1..], replies[1..])
      case Unreachable => []
  }

  /** What one row contributes when nothing stops the import: the server's
      product when the row was posted and accepted, nothing otherwise. */
  function Answer(payload: Payload, reply: Reply): seq<Product>
  {
    if Postable(payload) && reply.Registered? then [reply.product] else []
  }

  /** The accepted answers of all rows, in row order, ignoring lost connections. */
  function AcceptedAnswers(payloads: seq<Payload>, replies: seq<Reply>): (r: seq<Product>)
    requires |replies| == |payloads|
    ensures |r| <= |payloads|
  {
    if payloads == [] then []
    else
      var n := |payloads| - 1;
      AcceptedAnswers(payloads[..n], replies[..n]) + Answer(payloads[n], replies[n])
  }

  /** The first postable row whose POST got no answer, or `|payloads|` when every one did. */
  function FirstLost(payloads: seq<Payload>, replies: seq<Reply>): (k: nat)
    requires |replies| == |payloads|
    ensures k <= |payloads|
    ensures k < |payloads| ==> Postable(payloads[k]) && replies[k].Unreachable?
    ensures forall i :: 0 <= i < k ==> !(Postable(payloads[i]) && replies[i].Unreachable?)
  {
    if payloads == [] then 0
    else if Postable(payloads[0]) && replies[0].Unreachable? then 0
    else
      var k := 1 + FirstLost(payloads[1..], replies[1..]);
      assert forall i :: 1 <= i < |payloads| ==> payloads[i] == payloads[1..][i - 1] && replies[i] == replies[1..][i - 1];
      k
  }

  lemma {:induction false} AcceptedAnswersCons(x: Payload, y: Reply, payloads: seq<Payload>, replies: seq<Reply>)
    requires |replies| == |payloads|
    ensures AcceptedAnswers([x] + payloads, [y] + replies) == Answer(x, y) + AcceptedAnswers(payloads, replies)
    decreases |payloads|
  {
    if payloads == [] {
      assert ([x] + payloads)[..0] == [] && ([y] + replies)[..0] == [];
    } else {
      var n := |payloads| - 1;
      var ps, rs := [x] + payloads, [y] + replies;
      assert ps[..n + 1] == [x] + payloads[..n] && ps[n + 1] == payloads[n];
      assert rs[..n + 1] == [y] + replies[..n] && rs[n + 1] == replies[n];
      AcceptedAnswersLast(ps, rs);
      AcceptedAnswersCons(x, y, payloads[..n], replies[..n]);
      AcceptedAnswersLast(payloads, replies);
    }
  }

  /** Unfolds `AcceptedAnswers` once at the last row. */
  lemma AcceptedAnswersLast(payloads: seq<Payload>, replies: seq<Reply>)
    requires |replies| == |payloads| && payloads != []
    ensures var n := |payloads| - 1;
      AcceptedAnswers(payloads, replies) == AcceptedAnswers(payloads[..n], replies[..n]) + Answer(payloads[n], replies[n])
  {
  }

  /** A row that does not stop the import contributes its answer, then the rest follows. */
  lemma ImportedHead(payloads: seq<Payload>, replies: seq<Reply>)
    requires |replies| == |payloads| && payloads != []
    requires !(Postable(payloads[0]) && replies[0].Unreachable?)
    ensures Imported(payloads, replies) == Answer(payloads[0], replies[0]) + Imported(payloads[1..], replies[1..])
  {
  }

  lemma PrefixOfTail<T>(s: seq<T>, k: nat)
    requires s != [] && k < |s|
    ensures s[..k + 1] == [s[0]] + s[1..][..k]
  {
  }

  /** The import appends the accepted answers of the rows before the first
      lost connection, in row order, and nothing from that row on. */
  lemma {:induction false} ImportedStopsAtFirstLost(payloads: seq<Payload>, replies: seq<Reply>)
    requires |replies| == |payloads|
    ensures var k := FirstLost(payloads, replies);
      Imported(payloads, replies) == AcceptedAnswers(payloads[..k], replies[..k])
  {
    if payloads == [] {
    } else if Postable(payloads[0]) && replies[0].Unreachable? {
      assert FirstLost(payloads, replies) == 0;
    } else {
      var p1, r1 := payloads[1..], replies[1..];
      var k' := FirstLost(p1, r1);
      assert FirstLost(payloads, replies) == k' + 1;
      ImportedHead(payloads, replies);
      ImportedStopsAtFirstLost(p1, r1);
      AcceptedAnswersCons(payloads[0], replies[0], p1[..k'], r1[..k']);
      PrefixOfTail(payloads, k');
      PrefixOfTail(replies, k');
    }
  }

  /** Every imported product was the server's answer to a postable row. */
  lemma {:induction false} ImportedComeFromPostableRows(payloads: seq<Payload>, replies: seq<Reply>, k: int)
    requires |replies| == |payloads|
    requires 0 <= k < |Imported(payloads, replies)|
    ensures exists i :: (0 <= i < |payloads| && Postable(payloads[i])
                         && replies[i] == Registered(Imported(payloads, replies)[k]))
  {
    var added := Imported(payloads, replies);
    if !Postable(payloads[0]) {
      ImportedComeFromPostableRows(payloads[1..], replies[1..], k);
      var i :| 0 <= i < |payloads[1..]| && Postable(payloads[1..][i])
        && replies[1..][i] == Registered(Imported(payloads[1..], replies[1..])[k]);
      assert payloads[i + 1] == payloads[1..][i] && replies[i + 1] == replies[1..][i];
    } else {
      match replies[0]
      case Registered(p) =>
        if k > 0 {
          ImportedComeFromPostableRows(payloads[1..], replies[1..], k - 1);
          var i :| 0 <= i < |payloads[1..]| && Postable(payloads[1..][i])
            && replies[1..][i] == Registered(Imported(payloads[1..], replies[1..])[k - 1]);
          assert payloads[i + 1] == payloads[1..][i] && replies[i + 1] == replies[1..][i];
        }
      case Refused(_, _) =>
        ImportedComeFromPostableRows(payloads[1..], replies[1..], k);
        var i :| 0 <= i < |payloads[1..]| && Postable(payloads[1..][i])
          && replies[1..][i] == Registered(Imported(payloads[1..], replies[1..])[k]);
        assert payloads[i + 1] == payloads[1..][i] && replies[i + 1] == replies[1..][i];
      case Unreachable =>
    }
  }

  /** When the server accepts every row, each postable row adds one product. */
  lemma {:induction false} AllAcceptedImportsEveryPostableRow(payloads: seq<Payload>, replies: seq<Reply>)
    requires |replies| == |payloads|
    requires forall i :: 0 <= i < |replies| ==> replies[i].Registered?
    ensures |Imported(payloads, replies)| == |PostableRows(payloads)|
  {
    if payloads != [] {
      AllAcceptedImportsEveryPostableRow(payloads[1..], replies[1..]);
    }
  }

  /** The rows an import would post. */
  function PostableRows(payloads: seq<Payload>): (r: seq<Payload>)
    ensures forall p :: p in r <==> p in payloads && Postable(p)
  {
    if payloads == [] then []
    else (if Postable(payloads[0]) then [payloads[0]] else []) + PostableRows(payloads[1..])
  }

  // ---------------------------------------------------------------------------
  // Search
  // ---------------------------------------------------------------------------

  /** The search box keeps a product when the query occurs in its name,
      description or code, ignoring case. */
  predicate MatchesQuery(p: Product, query: string) {
    || Text.ContainsIgnoreCase(p.name, query)
    || Text.ContainsIgnoreCase(p.description, query)
    || Text.ContainsIgnoreCase(p.code, query)
  }

  /** `filteredProducts`. */
  function SearchProducts(ps: seq<Product>, query: string): (r: seq<Product>)
    ensures |r| <= |ps|
    ensures forall p :: p in r <==> p in ps && MatchesQuery(p, query)
  {
    if ps == [] then []
    else (if MatchesQuery(ps[0], query) then [ps[0]] else []) + SearchProducts(ps[1..], query)
  }

  /** The search keeps the list's order: searching a concatenation is
      concatenating the searches. */
  lemma {:induction false} SearchKeepsOrder(a: seq<Product>, b: seq<Product>, query: string)
    ensures SearchProducts(a + b, query) == SearchProducts(a, query) + SearchProducts(b, query)
  {
    if a == [] {
      assert a + b == b;
    } else {
      var ab := a + b;
      assert ab[0] == a[0];
      assert ab[1..] == a[1..] + b;
      var head := if MatchesQuery(a[0], query) then [a[0]] else [];
      assert SearchProducts(ab, query) == head + SearchProducts(a[1..] + b, query);
      assert SearchProducts(a, query) == head + SearchProducts(a[1..], query);
      SearchKeepsOrder(a[1..], b, query);
      assert head + (SearchProducts(a[1..], query) + SearchProducts(b, query))
          == (head + SearchProducts(a[1..], query)) + SearchProducts(b, query);
    }
  }

  /** An empty search box shows every product. */
  lemma {:induction false} EmptyQueryKeepsAll(ps: seq<Product>)
    ensures SearchProducts(ps, "") == ps
  {
    if ps != [] {
      Text.EmptyIsContained(Text.Lower(ps[0].name));
      EmptyQueryKeepsAll(ps[1..]);
      assert ps == [ps[0]] + ps[1..];
    }
  }

  // ---------------------------------------------------------------------------
  // Page state
  // ---------------------------------------------------------------------------

  class ProductsPage {
    var products: seq<Product>
    var form: ProductForm
    var errors: map<string, string>

    constructor (loaded: seq<Product>)
      ensures products == loaded && form == EmptyForm && errors == map[]
    {
      products := loaded;
      form := EmptyForm;
      errors := map[];
    }

    /** `handleSubmit`: refuses an incomplete form without posting; otherwise
        posts `SubmitPayload(form)`, whose answer is `reply`. */
    method HandleSubmit(reply: Reply) returns (posted: Option<Payload>)
      modifies this
      ensures posted.None? <==> !FormComplete(old(form))
      ensures posted.Some? ==> posted.value == SubmitPayload(old(form))
      ensures posted.None? ==>
        errors == map["api" := MissingFields] && products == old(products) && form == old(form)
      ensures posted.Some? && reply.Registered? ==>
        products == [reply.product] + old(products) && form == EmptyForm && errors == map[]
      ensures posted.Some? && reply.Refused? ==>
        && errors == map["api" := RefusalMessage(reply.status, reply.error)]
        && products == old(products) && form == old(form)
      ensures posted.Some? && reply.Unreachable? ==>
        errors == map["api" := ConnectionFailed] && products == old(products) && form == old(form)
    {
      if form.name == "" || form.description == "" || form.supplier == "" || form.code == "" {
        errors := map["api" := MissingFields];
        return None;
      }
      posted := Some(SubmitPayload(form));
      match reply
      case Registered(p) =>
        products := [p] + products;
        form := EmptyForm;
        errors := map[];
      case Refused(status, error) =>
        errors := map["api" := RefusalMessage(status, error)];
      case Unreachable =>
        errors := map["api" := ConnectionFailed];
    }

    /** `handleImportCSV` once the file is parsed: maps every record, posts
        the postable ones in order and appends what the server returns. */
    method HandleImport(rows: seq<CsvRow>, replies: seq<Reply>)
      requires |replies| == |rows|
      modifies this
      ensures products == old(products) + Imported(ImportAll(rows), replies)
      ensures form == old(form) && errors == old(errors)
    {
      PostAll(ImportAll(rows), replies);
    }

    /** The loop over the mapped rows. */
    method PostAll(payloads: seq<Payload>, replies: seq<Reply>)
      requires |replies| == |payloads|
      modifies this
      ensures products == old(products) + Imported(payloads, replies)
      ensures form == old(form) && errors == old(errors)
    {
      var i := 0;
      while i < |payloads|
        invariant 0 <= i <= |payloads|
        invariant form == old(form) && errors == old(errors)
        invariant products + Imported(payloads[i..], replies[i..]) == old(products) + Imported(payloads, replies)
      {
        ImportedStep(payloads, replies, i);
        var posted := payloads[i].name != "" && payloads[i].code != "";
        if posted && replies[i].Unreachable? {
          assert products == old(products) + Imported(payloads, replies);
          return;
        }
        if posted && replies[i].Registered? {
          products := products + [replies[i].product];
        }
        i := i + 1;
      }
      assert payloads[i..] == [];
    }
  }

  /** One step of the import: what row `i` contributes before the rest. */
  lemma ImportedStep(payloads: seq<Payload>, replies: seq<Reply>, i: int)
    requires |replies| == |payloads| && 0 <= i < |payloads|
    ensures Postable(payloads[i]) && replies[i].Unreachable? ==> Imported(payloads[i..], replies[i..]) == []
    ensures !(Postable(payloads[i]) && replies[i].Unreachable?) ==>
      Imported(payloads[i..], replies[i..]) ==
        (if Postable(payloads[i]) && replies[i].Registered? then [replies[i].product] else [])
        + Imported(payloads[i + 1..], replies[i + 1..])
  {
    assert payloads[i..][0] == payloads[i] && replies[i..][0] == replies[i];
    assert payloads[i..][1..] == payloads[i + 1..] && replies[i..][1..] == replies[i + 1..];
    var rest := Imported(payloads[i + 1..], replies[i + 1..]);
    assert [] + rest == rest;
  }

  /** `results.data.map(...)`: every record mapped, in order. */
  function ImportAll(rows: seq<CsvRow>): (r: seq<Payload>)
    ensures |r| == |rows|
    ensures forall i :: 0 <= i < |rows| ==> r[i] == ImportRow(rows[i])
  {
    seq(|rows|, i requires 0 <= i < |rows| => ImportRow(rows[i]))
  }
}

=== FILE: register.dfy ===
/** The registration page (pages/register/index.tsx): the live password
    rules, the checks `onSubmit` runs before it posts the form, and the
    removal of one field's error. */
module Register {
  import opened Optional
  import Text

  const TooShort := "Senha precisa ter 4 caracteres ou mais"
  const NoUppercase := "Senha precisa de pelo menos uma letra em caixa alta"
  const NoSymbol := "Senha necessita pelo menos um simbolo"
  const ReservedName := "ta facil"
  const TermsRefused := "Por favor aceite os termos."
  const RegisterFailed := "Erro ao registrar"
  const ConnectionFailed := "Erro de conexão com o servidor"

  predicate HasUpper(s: string) {
    exists i :: 0 <= i < |s| && Text.IsUpper(s[i])
  }

  /** A character outside `[a-z]` matched case-insensitively: anything but an ASCII letter. */
  predicate HasNonLetter(s: string) {
    exists i :: 0 <= i < |s| && !Text.IsLetter(s[i])
  }

  /** The number of matches of `/[A-Z]/g`. */
  function CountUpper(s: string): (n: nat)
    ensures n <= |s|
    ensures n >= 1 <==> HasUpper(s)
  {
    if s == [] then 0
    else
      var rest := CountUpper(s[1..]);
      assert HasUpper(s) <==> Text.IsUpper(s[0]) || HasUpper(s[1..]) by {
        if HasUpper(s[1..]) {
          var i :| 0 <= i < |s[1..]| && Text.IsUpper(s[1..][i]);
          assert s[i + 1] == s[1..][i];
        }
        if HasUpper(s) && !Text.IsUpper(s[0]) {
          var i :| 0 <= i < |s| && Text.IsUpper(s[i]);
          assert s[1..][i - 1] == s[i];
        }
      }
      (if Text.IsUpper(s[0]) then 1 else 0) + rest
  }

  /** The number of matches of `/[^a-z]/gi`. */
  function CountNonLetter(s: string): (n: nat)
    ensures n <= |s|
    ensures n >= 1 <==> HasNonLetter(s)
  {
    if s == [] then 0
    else
      var rest := CountNonLetter(s[1..]);
      assert HasNonLetter(s) <==> !Text.IsLetter(s[0]) || HasNonLetter(s[1..]) by {
        if HasNonLetter(s[1..]) {
          var i :| 0 <= i < |s[1..]| && !Text.IsLetter(s[1..][i]);
          assert s[i + 1] == s[1..][i];
        }
        if HasNonLetter(s) && Text.IsLetter(s[0]) {
          var i :| 0 <= i < |s| && !Text.IsLetter(s[i]);
          assert s[1..][i - 1] == s[i];
        }
      }
      (if !Text.IsLetter(s[0]) then 1 else 0) + rest
  }

  /** The first rule the password breaks, checked in the order length,
      capital letter, symbol; `None` when it keeps all three. */
  function PasswordError(password: string): (r: Option<string>)
    ensures |password| < 4 ==> r == Some(TooShort)
    ensures |password| >= 4 && !HasUpper(password) ==> r == Some(NoUppercase)
    ensures |password| >= 4 && HasUpper(password) && !HasNonLetter(password) ==> r == Some(NoSymbol)
    ensures r.None? <==> |password| >= 4 && HasUpper(password) && HasNonLetter(password)
  {
    if |password| < 4 then Some(TooShort)
    else if CountUpper(password) < 1 then Some(NoUppercase)
    else if CountNonLetter(password) < 1 then Some(NoSymbol)
    else None
  }

  /** A digit is enough for the symbol rule. */
  lemma DigitCountsAsSymbol()
    ensures PasswordError("Abc1") == None
  {
    assert Text.IsUpper("Abc1"[0]);
    assert !Text.IsLetter("Abc1"[3]);
  }

  /** The form fields, each already converted with `String(value || '')`. */
  datatype RegistrationData = RegistrationData(name: string, email: string, password: string, country: string, terms: string)

  /** Errors by field name, as the form shows them. */
  type Errors = map<string, string>

  /** Submission is refused exactly when one of the three checks fails. */
  predicate Refused(data: RegistrationData) {
    PasswordError(data.password).Some? || data.name == "admin" || data.terms != "true"
  }

  /** `m` is the `newErrors` of `data`: a `password` entry with the password's
      message exactly when it is refused, `name` with "ta facil" exactly for
      `admin`, `terms` exactly when the terms were not accepted, and nothing else. */
  predicate NewErrorsFor(m: Errors, data: RegistrationData) {
    && m.Keys <= {"password", "name", "terms"}
    && ("password" in m <==> PasswordError(data.password).Some?)
    && ("password" in m ==> m["password"] == PasswordError(data.password).value)
    && ("name" in m <==> data.name == "admin")
    && ("name" in m ==> m["name"] == ReservedName)
    && ("terms" in m <==> data.terms != "true")
    && ("terms" in m ==> m["terms"] == TermsRefused)
  }

  /** The description fixes the map: its keys and every value are determined. */
  lemma NewErrorsAreUnique(m1: Errors, m2: Errors, data: RegistrationData)
    requires NewErrorsFor(m1, data) && NewErrorsFor(m2, data)
    ensures m1 == m2
  {
    assert m1.Keys == m2.Keys;
  }

  /** The `newErrors` dictionary, filled check by check. */
  method CollectErrors(data: RegistrationData) returns (newErrors: Errors)
    ensures NewErrorsFor(newErrors, data)
    ensures newErrors != map[] <==> Refused(data)
  {
    newErrors := map[];
    var passwordError := PasswordError(data.password);
    if passwordError.Some? {
      newErrors := newErrors["password" := passwordError.value];
    }
    if data.name == "admin" {
      newErrors := newErrors["name" := ReservedName];
    }
    if data.terms != "true" {
      newErrors := newErrors["terms" := TermsRefused];
    }
    if Refused(data) {
      var k := if "password" in newErrors then "password" else if "name" in newErrors then "name" else "terms";
      var none: Errors := map[];
      assert k in newErrors && k !in none;
    }
  }

  /** What `/api/register` answered: success, a refusal with an optional
      `error` text, or no answer at all. */
  datatype RegisterReply = Accepted | Rejected(error: Option<string>) | Unreachable

  class RegistrationForm {
    var errors: Errors

    constructor ()
      ensures errors == map[]
    {
      errors := map[];
    }

    /** `onSubmit`: shows the validation errors and stops, or clears them,
        posts the form (its answer is `reply`) and shows the API error, if any. */
    method OnSubmit(data: RegistrationData, reply: RegisterReply) returns (sent: bool)
      modifies this
      ensures sent <==> !Refused(data)
      ensures !sent ==> errors != map[] && NewErrorsFor(errors, data)
      ensures sent && reply.Accepted? ==> errors == map[]
      ensures sent && reply.Rejected? ==>
        errors == map["api" := if reply.error.Some? && reply.error.value != "" then reply.error.value else RegisterFailed]
      ensures sent && reply.Unreachable? ==> errors == map["api" := ConnectionFailed]
    {
      var newErrors := CollectErrors(data);
      if newErrors != map[] {
        errors := newErrors;
        return false;
      }
      errors := map[];
      sent := true;
      match reply
      case Accepted =>
      case Rejected(error) =>
        errors := map["api" := if error.Some? && error.value != "" then error.value else RegisterFailed];
      case Unreachable =>
        errors := map["api" := ConnectionFailed];
    }

    /** `removeError`: forgets the error of one field and keeps every other one. */
    method RemoveError(field: string)
      modifies this
      ensures field !in errors
      ensures forall k :: k != field ==> (k in errors <==> k in old(errors))
      ensures forall k :: k != field && k in errors ==> errors[k] == old(errors)[k]
    {
      errors := errors - {field};
    }
  }
}

=== FILE: text.dfy ===
/** String helpers shared by the handlers and pages: ASCII case folding,
    substring search (`includes`, `ILIKE '%...%'`), decimal rendering of
    integers (`String(n)`, `n::text`) and JavaScript's `parseInt`. */
module Text {
  import opened Optional

  predicate IsUpper(c: char) { 'A' <= c <= 'Z' }
  predicate IsLower(c: char) { 'a' <= c <= 'z' }
  predicate IsLetter(c: char) { IsUpper(c) || IsLower(c) }
  predicate IsDigit(c: char) { '0' <= c <= '9' }
  /** The ASCII white space `parseInt` skips: space, tab, line feed, vertical tab, form feed, carriage return. */
  predicate IsSpace(c: char) {
    c == ' ' || c == '\t' || c == '\n' || c == '\U{000B}' || c == '\U{000C}' || c == '\r'
  }

  /** `toLowerCase` of one character, restricted to the ASCII letters. */
  function LowerChar(c: char): (d: char)
    ensures !IsUpper(d)
    ensures IsUpper(c) ==> d as int == c as int + 32
    ensures !IsUpper(c) ==> d == c
  {
    if IsUpper(c) then (c as int + 32) as char else c
  }

  /** `s.toLowerCase()` with ASCII case folding. */
  function Lower(s: string): (r: string)
    ensures |r| == |s|
    ensures forall i :: 0 <= i < |s| ==> r[i] == LowerChar(s[i])
  {
    seq(|s|, i requires 0 <= i < |s| => LowerChar(s[i]))
  }

  /** Lower-casing a string with no capital letter leaves it as it is. */
  lemma {:induction false} LowerKeepsLowercase(s: string)
    requires forall i :: 0 <= i < |s| ==> !IsUpper(s[i])
    ensures Lower(s) == s
  {
  }

  /** `sub` occurs in `s` starting at position `i`. */
  predicate OccursAt(s: string, sub: string, i: nat) {
    i + |sub| <= |s| && s[i..i + |sub|] == sub
  }

  /** `s.includes(sub)`. */
  predicate Contains(s: string, sub: string) {
    exists i: nat :: i <= |s| && OccursAt(s, sub, i)
  }

  /** Case-insensitive `includes`, as `ILIKE '%sub%'` decides it for a
      pattern without wildcards of its own. A match is never longer than
      the text, and two strings equal up to case contain each other. */
  function ContainsIgnoreCase(s: string, sub: string): (b: bool)
    ensures b ==> |sub| <= |s|
    ensures Lower(s) == Lower(sub) ==> b
  {
    assert OccursAt(Lower(s), Lower(s), 0) by {
      assert Lower(s)[0..|Lower(s)|] == Lower(s);
    }
    Contains(Lower(s), Lower(sub))
  }

  /** The empty string occurs in every string, so an empty search keeps everything. */
  lemma {:induction false} EmptyIsContained(s: string)
    ensures Contains(s, "")
  {
    assert OccursAt(s, "", 0);
  }

  function DigitChar(d: nat): (c: char)
    requires d < 10
    ensures IsDigit(c)
  {
    ('0' as int + d) as char
  }

  /** Decimal digits of a natural number, most significant first, no leading zero. */
  function NatToText(n: nat): (r: string)
    ensures |r| >= 1
    ensures forall i :: 0 <= i < |r| ==> IsDigit(r[i])
    decreases n
  {
    if n < 10 then [DigitChar(n)] else NatToText(n / 10) + [DigitChar(n % 10)]
  }

  /** Decimal rendering of an integer, as `String(n)` in JavaScript or
      `n::text` in PostgreSQL produce it. */
  function IntToText(n: int): (r: string)
    ensures |r| >= 1
    ensures IsDigit(r[0]) || r[0] == '-'
    ensures forall i :: 1 <= i < |r| ==> IsDigit(r[i])
  {
    if n < 0 then "-" + NatToText(-n) else NatToText(n)
  }

  /** `s` without its leading white space. */
  function TrimStart(s: string): (r: string)
    ensures |r| <= |s|
    ensures r == s[|s| - |r|..]
    ensures forall i :: 0 <= i < |s| - |r| ==> IsSpace(s[i])
    ensures r != [] ==> !IsSpace(r[0])
  {
    if s != [] && IsSpace(s[0]) then TrimStart(s[1..]) else s
  }

  /** Value of the digit `c` in base `radix` (10 or 16), or -1 when `c` is not one. */
  function DigitValue(c: char, radix: nat): int
  {
    if IsDigit(c) then c as int - '0' as int
    else if radix == 16 && 'a' <= c <= 'f' then c as int - 'a' as int + 10
    else if radix == 16 && 'A' <= c <= 'F' then c as int - 'A' as int + 10
    else -1
  }

  /** The longest prefix of `s` made of digits in base `radix`. */
  function DigitRun(s: string, radix: nat): (r: string)
    ensures |r| <= |s| && r == s[..|r|]
    ensures forall i :: 0 <= i < |r| ==> DigitValue(r[i], radix) >= 0
    ensures |r| < |s| ==> DigitValue(s[|r|], radix) < 0
  {
    if s != [] && DigitValue(s[0], radix) >= 0 then [s[0]] + DigitRun(s[1..], radix) else []
  }

  /** The number a run of digits denotes, most significant digit first. */
  function RunValue(ds: string, radix: nat): nat
    requires forall i :: 0 <= i < |ds| ==> DigitValue(ds[i], radix) >= 0
  {
    if ds == [] then 0
    else
      var front := ds[..|ds| - 1];
      assert forall i :: 0 <= i < |front| ==> front[i] == ds[i];
      RunValue(front, radix) * radix + DigitValue(ds[|ds| - 1], radix)
  }

  /** The digits after the sign: a `0x`/`0X` prefix selects base 16, and the
      longest run of digits that follows is converted; `None` when there is
      no digit at all. */
  function ParseMagnitude(u: string): Option<nat>
  {
    var hex := |u| >= 2 && u[0] == '0' && (u[1] == 'x' || u[1] == 'X');
    var radix := if hex then 16 else 10;
    var ds := DigitRun(if hex then u[2..] else u, radix);
    if ds == [] then None else Some(RunValue(ds, radix))
  }

  /** An optional sign, then the magnitude. */
  function ParseSigned(t: string): Option<int>
  {
    var negative := |t| > 0 && t[0] == '-';
    var rest := if |t| > 0 && (t[0] == '-' || t[0] == '+') then t[1..] else t;
    var magnitude := ParseMagnitude(rest);
    if magnitude.None? then None
    else Some(if negative then -(magnitude.value as int) else magnitude.value as int)
  }

  /** JavaScript `parseInt(s)` without a radix: leading white space is
      skipped, then a signed magnitude is read; `None` stands for NaN, which
      is the answer for every text without a decimal digit. */
  function ParseInt(s: string): (r: Option<int>)
    ensures r.Some? ==> exists i :: 0 <= i < |s| && IsDigit(s[i])
  {
    var t := TrimStart(s);
    SignedHasDigit(t);
    assert forall i :: 0 <= i < |t| ==> t[i] == s[|s| - |t| + i];
    ParseSigned(t)
  }

  /** A signed magnitude is read only where a decimal digit follows the sign. */
  lemma SignedHasDigit(t: string)
    ensures ParseSigned(t).Some? ==> exists i :: 0 <= i < |t| && IsDigit(t[i])
  {
    var rest := if |t| > 0 && (t[0] == '-' || t[0] == '+') then t[1..] else t;
    if ParseSigned(t).Some? {
      var hex := |rest| >= 2 && rest[0] == '0' && (rest[1] == 'x' || rest[1] == 'X');
      var radix := if hex then 16 else 10;
      var v := if hex then rest[2..] else rest;
      var ds := DigitRun(v, radix);
      assert ds != [];
      assert IsDigit(rest[0]) by {
        if !hex {
          assert ds[0] == v[0] && DigitValue(ds[0], 10) >= 0;
        }
      }
      var k := if |t| > 0 && (t[0] == '-' || t[0] == '+') then 1 else 0;
      assert t[k] == rest[0];
    }
  }

  /** A string made only of decimal digits is its own digit run. */
  lemma {:induction false} DigitsAreOneRun(s: string)
    requires forall i :: 0 <= i < |s| ==> IsDigit(s[i])
    ensures DigitRun(s, 10) == s
  {
    if s != [] {
      DigitsAreOneRun(s[1..]);
    }
  }

  /** Reading back the decimal digits of `n` gives `n`. */
  lemma {:induction false} NatToTextValue(n: nat)
    ensures RunValue(NatToText(n), 10) == n
    decreases n
  {
    var s := NatToText(n);
    if n >= 10 {
      NatToTextValue(n / 10);
      assert s[..|s| - 1] == NatToText(n / 10);
    }
  }

  /** A non-empty run of decimal digits is read back as its value. */
  lemma {:induction false} DigitsMagnitude(digits: string)
    requires |digits| >= 1
    requires forall i :: 0 <= i < |digits| ==> IsDigit(digits[i])
    ensures ParseMagnitude(digits) == Some(RunValue(digits, 10))
  {
    DigitsAreOneRun(digits);
    assert !(|digits| >= 2 && (digits[1] == 'x' || digits[1] == 'X'));
  }

  lemma {:induction false} TrimStartKeeps(s: string)
    requires s != [] && !IsSpace(s[0])
    ensures TrimStart(s) == s
  {
  }

  /** A non-empty run of decimal digits reads back as its value. */
  lemma {:induction false} ParseDigitString(digits: string)
    requires |digits| >= 1
    requires forall i :: 0 <= i < |digits| ==> IsDigit(digits[i])
    ensures ParseInt(digits) == Some(RunValue(digits, 10) as int)
  {
    TrimStartKeeps(digits);
    assert ParseInt(digits) == ParseSigned(digits);
    assert IsDigit(digits[0]);
    DigitsMagnitude(digits);
    var magnitude := ParseMagnitude(digits);
    assert magnitude == Some(RunValue(digits, 10));
    assert ParseSigned(digits) == Some(magnitude.value as int);
  }

  /** A minus sign followed by a non-empty run of decimal digits reads back as minus its value. */
  lemma {:induction false} ParseMinusDigitString(digits: string)
    requires |digits| >= 1
    requires forall i :: 0 <= i < |digits| ==> IsDigit(digits[i])
    ensures ParseInt("-" + digits) == Some(-(RunValue(digits, 10) as int))
  {
    var s := "-" + digits;
    TrimStartKeeps(s);
    assert ParseInt(s) == ParseSigned(s);
    assert s[0] == '-' && s[1..] == digits;
    DigitsMagnitude(digits);
    var magnitude := ParseMagnitude(digits);
    assert magnitude == Some(RunValue(digits, 10));
    assert ParseSigned(s) == Some(-(magnitude.value as int));
  }

  /** `parseInt(String(n)) === n` for every integer `n`. */
  lemma {:induction false} ParseIntRoundTrip(n: int)
    ensures ParseInt(IntToText(n)) == Some(n)
  {
    var t := IntToText(n);
    if n < 0 {
      var m: nat := -n;
      var digits := NatToText(m);
      assert t == "-" + digits;
      ParseMinusDigitString(digits);
      NatToTextValue(m);
      assert ParseInt("-" + digits) == Some(n);
    } else {
      var digits := NatToText(n);
      assert t == digits;
      ParseDigitString(digits);
      NatToTextValue(n);
      assert ParseInt(digits) == Some(n);
    }
  }
}

=== FILE: update_stock.dfy ===
/** The stock endpoint `/api/updateStock` (pages/api/updateStock.ts): a POST
    with a product code and a quantity delta runs
    `UPDATE product SET quantity = GREATEST(quantity + delta, 0) WHERE code = ...`
    and answers with the first updated row, or 404 when no row has the code. */
module UpdateStock {
  import opened Optional
  import opened Catalog

  /** `GREATEST(quantity + delta, 0)`: the sum, clamped below at zero. */
  function Restocked(quantity: int, delta: int): (q: int)
    ensures q >= 0 && q >= quantity + delta
    ensures q == 0 || q == quantity + delta
  {
    if quantity + delta < 0 then 0 else quantity + delta
  }

  /** The product table after the UPDATE: every row with the code gets the
      clamped quantity, every other row is untouched. */
  function ApplyDelta(rows: seq<Product>, code: string, delta: int): (r: seq<Product>)
    ensures |r| == |rows|
    ensures forall i :: 0 <= i < |rows| && rows[i].code != code ==> r[i] == rows[i]
    ensures forall i :: 0 <= i < |rows| && rows[i].code == code ==>
      r[i] == rows[i].(quantity := Restocked(rows[i].quantity, delta))
  {
    if rows == [] then []
    else
      var head := if rows[0].code == code then rows[0].(quantity := Restocked(rows[0].quantity, delta)) else rows[0];
      [head] + ApplyDelta(rows[1..], code, delta)
  }

  predicate HasCode(rows: seq<Product>, code: string) {
    exists i :: 0 <= i < |rows| && rows[i].code == code
  }

  predicate AllInStock(rows: seq<Product>) {
    forall i :: 0 <= i < |rows| ==> rows[i].quantity >= 0
  }

  /** The UPDATE of a table that grew by one row is the UPDATE of the old
      table followed by the new row, updated on its own. */
  lemma {:induction false} ApplyDeltaSnoc(rows: seq<Product>, row: Product, code: string, delta: int)
    ensures ApplyDelta(rows + [row], code, delta) == ApplyDelta(rows, code, delta) + ApplyDelta([row], code, delta)
  {
  }

  /** An update never makes a quantity negative: a table without negative
      quantities keeps none, whatever the delta. */
  lemma {:induction false} ApplyDeltaKeepsStock(rows: seq<Product>, code: string, delta: int)
    requires AllInStock(rows)
    ensures AllInStock(ApplyDelta(rows, code, delta))
  {
  }

  /** An unknown code matches no row, so the table is left exactly as it was. */
  lemma {:induction false} UnknownCodeChangesNothing(rows: seq<Product>, code: string, delta: int)
    requires !HasCode(rows, code)
    ensures ApplyDelta(rows, code, delta) == rows
  {
  }

  /** Two updates of the same code with non-negative deltas add up; the clamp
      only acts on decrements. */
  lemma {:induction false} IncrementsAccumulate(rows: seq<Product>, code: string, d1: nat, d2: nat)
    requires AllInStock(rows)
    ensures ApplyDelta(ApplyDelta(rows, code, d1), code, d2) == ApplyDelta(rows, code, d1 + d2)
  {
    var once := ApplyDelta(rows, code, d1);
    var twice := ApplyDelta(once, code, d2);
    var direct := ApplyDelta(rows, code, d1 + d2);
    forall i | 0 <= i < |rows| ensures twice[i] == direct[i] {
      if rows[i].code == code {
        assert once[i].code == code;
      }
    }
  }

  /** The JSON body: `code` is `None` when absent, `quantity` is `None` when
      absent or not a JSON number. */
  datatype StockBody = StockBody(code: Option<string>, quantity: Option<int>)

  datatype StockResponse =
    | Updated(code: string, name: string, quantity: int)   // 200 { success, product }
    | Failed(status: int, error: string)

  const NotAllowed := "Method not allowed"
  const InvalidFields := "Missing or invalid fields"
  const NotFound := "Product not found"

  /** The product table the endpoint updates, in storage order. */
  class ProductTable {
    var rows: seq<Product>

    constructor (initial: seq<Product>)
      ensures rows == initial
    {
      rows := initial;
    }

    /** The UPDATE itself, row by row: the new table, and the position of the
        first row it changed (`None` when the code matched no row). */
    static method RunUpdate(table: seq<Product>, code: string, delta: int)
      returns (updated: seq<Product>, first: Option<nat>)
      ensures updated == ApplyDelta(table, code, delta)
      ensures first.None? <==> !HasCode(table, code)
      ensures first.Some? ==> first.value < |table| && table[first.value].code == code
      ensures first.Some? ==> forall j :: 0 <= j < first.value ==> table[j].code != code
    {
      updated := [];
      first := None;
      var i := 0;
      while i < |table|
        invariant 0 <= i <= |table|
        invariant updated == ApplyDelta(table[..i], code, delta)
        invariant first.None? <==> forall j :: 0 <= j < i ==> table[j].code != code
        invariant first.Some? ==> first.value < i && table[first.value].code == code
        invariant first.Some? ==> forall j :: 0 <= j < first.value ==> table[j].code != code
      {
        var row := table[i];
        if row.code == code {
          row := row.(quantity := Restocked(row.quantity, delta));
          if first.None? {
            first := Some(i);
          }
        }
        assert ApplyDelta([table[i]], code, delta) == [row];
        ApplyDeltaSnoc(table[..i], table[i], code, delta);
        assert table[..i + 1] == table[..i] + [table[i]];
        updated := updated + [row];
        i := i + 1;
      }
      assert table[..i] == table;
    }

    /** The handler: checks the method and the body, runs the UPDATE and
        answers with the first updated row. */
    method Handle(httpMethod: string, body: StockBody) returns (r: StockResponse)
      modifies this
      ensures httpMethod != "POST" ==> r == Failed(405, NotAllowed) && rows == old(rows)
      ensures httpMethod == "POST" && (body.code.None? || body.code.value == "" || body.quantity.None?) ==>
        r == Failed(400, InvalidFields) && rows == old(rows)
      ensures httpMethod == "POST" && body.code.Some? && body.code.value != "" && body.quantity.Some? ==>
        && rows == ApplyDelta(old(rows), body.code.value, body.quantity.value)
        && (!HasCode(old(rows), body.code.value) ==> r == Failed(404, NotFound) && rows == old(rows))
        && (HasCode(old(rows), body.code.value) ==>
              exists i :: 0 <= i < |rows| && rows[i].code == body.code.value
                && (forall j :: 0 <= j < i ==> rows[j].code != body.code.value)
                && r == Updated(rows[i].code, rows[i].name, rows[i].quantity))
    {
      if httpMethod != "POST" {
        return Failed(405, NotAllowed);
      }
      if body.code.None? || body.code.value == "" || body.quantity.None? {
        return Failed(400, InvalidFields);
      }
      var code, delta := body.code.value, body.quantity.value;
      var updated, first := RunUpdate(rows, code, delta);
      if first.None? {
        UnknownCodeChangesNothing(rows, code, delta);
        rows := updated;
        r := Failed(404, NotFound);
      } else {
        var k := first.value;
        rows := updated;
        assert rows[k].code == code;
        r := Updated(rows[k].code, rows[k].name, rows[k].quantity);
      }
    }
  }
}
